=== FILE: README.md ===
# Social-media autopilot dashboard: the pure core, in Dafny

This project models the logic of the autopilot dashboard's front end, which
schedules and posts Instagram and YouTube content. The model covers the parts
that are pure functions of their inputs:

- **Trend chart** (`ChartLines`). The model covers:
  - choosing the series and the shared vertical scale;
  - the 7-sample trailing moving average;
  - linear interpolation and the vertical mapping;
  - the horizontally scrolling path and the sparkle dots;
  - the date ticks;
  - the hover value, the tooltip and the click target;
  - the glow alpha and the animation clock.
- **API client** (`api.ts`). The model covers:
  - normalising the configured base URL;
  - the fixed endpoint paths;
  - the query strings of `autopilotQueue`, `activityFeed` and `eventsRecent`.
- **Schedule panel** (`SchedulePanel`). The model covers:
  - the `:20` slot test and the future-with-grace test;
  - merging the Instagram and YouTube queues;
  - de-duplicating by platform and minute;
  - sorting by scheduled time.
- **Recent-posts filter** (`filterVerifiedRecent`): posted, fresh and, where applicable, linked posts only.
- **Time helpers** (`time.ts`):
  - `displayIso`, which prefers a rescheduled item's original time;
  - the placeholder branch of `formatLocal`.
- **Autopilot page**. The model covers:
  - the queue item key;
  - the optimistic Prioritize and Remove edits;
  - row titles and row numbers;
  - the Prev/Next page buttons;
  - the ordering of the queue modal by displayed time.
- **Activity heatmap**:
  - the colour-scale maximum and the RGB ramp;
  - the legend;
  - the all-zero matrix shown when loading fails.

Modules follow the source files:

| module | file | models |
|---|---|---|
| `Js` | `js.dfy` | helpers for JavaScript operations: truthiness, `\|\|` and `??`, ASCII lower-casing, `slice`, decimal rendering, `Math.round`, `%` |
| `Seqs` | `seqs.dfy` | generic helpers: filter, subsequence, `flat`, maximum, stable insertion sort with a total preorder |
| `Chart` | `chart.dfy` | `ChartLines.tsx` |
| `Time` | `time.dfy` | `lib/time.ts` |
| `Schedule` | `schedule.dfy` | `SchedulePanel.tsx` |
| `Recent` | `recent.dfy` | `utils/recentFilter.ts` |
| `Autopilot` | `autopilot.dfy` | `app/autopilot/page.tsx` |
| `Heatmap` | `heatmap.dfy` | `ActivityHeatmap.tsx` |
| `Api` | `api.dfy` | `utils/api.ts` |

**Numbers.** JavaScript numbers are exact `real`s in the chart and heatmap, and `int`s for times in milliseconds, limits and pages. Details:

- `Math.floor` is `.Floor`.
- `Math.round(x)` is `floor(x + 0.5)`.
- `x % m` on non-negative operands is `x − m·floor(x/m)`.

**Parameters.** The world outside the program enters as parameters:

- the current time `now`;
- the date parsers, which return `None` for NaN (`Date.parse`, `new Date(x).getTime()`);
- `encodeURIComponent`;
- the dayjs formatter.

**Absent values.** `undefined` and `null` are both `None`. A string field's truthiness is "present and non-empty".

## Model

| member | source | states |
|---|---|---|
| Chart.SelectSeries | src/components/ChartLines.tsx:26-28 | single mode draws `points` and an empty second series; dual mode (either platform series passed) draws the two platform series, a missing one as empty |
| Chart.PointsIgnoredInDualMode | src/components/ChartLines.tsx:26-28 | once a platform series is supplied, changing `points` changes nothing drawn |
| Chart.MaxVal | src/components/ChartLines.tsx:30-34 | the scale is ≥ 1, ≥ every sample of each shown series, and equals 1 or a shown sample, so hidden series do not influence it |
| Chart.MaxValNothingVisible | src/components/ChartLines.tsx:30-34 | with no visible sample the scale is exactly 1 |
| Chart.Smooth | src/components/ChartLines.tsx:36-47 | the accumulator loop returns the input when smoothing is off or the window ≤ 1; otherwise sample i is the sum of the last min(i+1, w) samples over that count, i.e. equals the trailing-window reference `Smoothed` |
| Chart.SmoothedFormula | src/components/ChartLines.tsx:40-45 | the trailing-window mean divides by i+1 while the window fills and by w after, as the accumulator loop does |
| Chart.SmoothedWithinWindow | src/components/ChartLines.tsx:36-47 | each smoothed sample lies between the least and greatest sample of its window |
| Chart.SmoothedStaysInRange | src/components/ChartLines.tsx:36-47 | samples within [0, top] stay within [0, top] after smoothing, with the length kept |
| Chart.SmoothWarmUpExample | src/components/ChartLines.tsx:43-44 | during warm-up the divisor is the count seen so far: [10,20,30,40] smooths to 10, 15, …, 25 |
| Chart.Interpolate | src/components/ChartLines.tsx:106-110 | `v0 + (v1 − v0)·frac` lies between the two neighbouring samples and reads a whole index exactly; past the end `v1` falls back to `v0` |
| Chart.HoldsLastSample | src/components/ChartLines.tsx:108-109 | at the last index the last sample is held, never extrapolated |
| Chart.InterpolateExamples | src/components/ChartLines.tsx:106-110 | [10,20,30] reads 15 at 0.5 and 30 at 2 |
| Chart.PlotY | src/components/ChartLines.tsx:111 | values in [0, maxVal] map into the band [0.05h, 0.95h]; 0 maps to 0.95h and maxVal to 0.05h |
| Chart.PlotYAntitone | src/components/ChartLines.tsx:111 | a larger value is drawn no lower |
| Chart.ScrollPhase | src/components/ChartLines.tsx:101 | the scroll phase lies in [0, 1) |
| Chart.ScrollIndex | src/components/ChartLines.tsx:104-106 | the wrapped fractional index lies in [0, n−1), so its floor and floor+1 are both samples |
| Chart.ScrollEnds | src/components/ChartLines.tsx:104-105 | without scroll the first column shows sample 0 and the last column wraps back to sample 0 |
| Chart.ScrollLinearWithoutPhase | src/components/ChartLines.tsx:104-105 | without scroll every column but the last maps linearly onto the data |
| Chart.PathValue | src/components/ChartLines.tsx:102-110 | each column's value lies between the two samples around its index |
| Chart.PathYs | src/components/ChartLines.tsx:102-113 | one y per pixel column, all inside the band when the samples lie in [0, maxVal] |
| Chart.SparklePhase | src/components/ChartLines.tsx:132 | each sparkle's phase lies in [0, 1) |
| Chart.SparkleDot | src/components/ChartLines.tsx:131-137 | a sparkle's column lies on the canvas and its height inside the band |
| Chart.GridLines | src/components/ChartLines.tsx:86-90 | six grid lines, evenly spaced from the top edge to the bottom edge |
| Chart.TickIndices | src/components/ChartLines.tsx:153-155 | ticks fall exactly on the indices below n that are multiples of 7, in increasing order |
| Chart.TickX | src/components/ChartLines.tsx:156 | a tick's column lies on the canvas |
| Chart.TickLabelExample | src/components/ChartLines.tsx:158 | the label drops the year: "2024-01-15" reads "01-15" |
| Chart.HoverX | src/components/ChartLines.tsx:218-221 | the pointer position lies in [0, 1]: the plain ratio inside the element, 0 at or left of its left edge, 1 at or beyond left + max(1, width) |
| Chart.HoverValue | src/components/ChartLines.tsx:176-179 | the value under the cursor is the first sample at the left edge and the last at the right edge |
| Chart.HoverPosition | src/components/ChartLines.tsx:177 | the fractional index `hoverX·(n−1)` stays inside the series and hits its first and last index at the two edges |
| Chart.HoverValueBetween | src/components/ChartLines.tsx:176-179 | the value under the cursor lies between the samples around hoverX·(n−1) |
| Chart.HoverPoint | src/components/ChartLines.tsx:174-185 | an empty series reports (0, 0); otherwise the value is the hover value and the dot lies in the band |
| Chart.DateIndex | src/components/ChartLines.tsx:186 | −1 without dates; otherwise a valid index, the one nearest the cursor, first and last at the edges |
| Chart.ClickedDate | src/components/ChartLines.tsx:208-213 | a click yields a date iff there is a callback, a hover position and at least one date; the date is among the dates, first/last at the edges |
| Chart.TooltipX | src/components/ChartLines.tsx:190 | the box never passes the right margin, keeps the left margin when the canvas is wide enough, and otherwise sits 8 px right of the cursor |
| Chart.MakeTooltip | src/components/ChartLines.tsx:186-189 | the lines are a date line iff the date is non-empty, then IG and YT lines for shown series, in that order, so YT is the last line and IG the one before it when both are shown; the box is 16 per line plus 10 high |
| Chart.GlowAlpha | src/components/ChartLines.tsx:116 | the glow alpha is 0.12·speed between speeds 0.5 and 0.28/0.12, 0.06 at or below the first and 0.28 at or above the second |
| Chart.GlowAlphaMonotone | src/components/ChartLines.tsx:116 | a faster animation never glows dimmer |
| Chart.ClockStep | src/components/ChartLines.tsx:201-203 | each frame advances the clock by 0.006·0.6·speed while 0.6·speed lies in [0.2, 3], by 0.006·0.2 below that and by 0.006·3 above it |
| Chart.ClockIncreases | src/components/ChartLines.tsx:199-203 | the clock rises strictly, by at least 0.0012 per frame |
| Chart.FramePathInBand | src/components/ChartLines.tsx:26-34 | end to end: each shown non-negative series, IG and YT alike, smoothed or not, scrolled at any time, is drawn inside the band |
| Time.DisplayIso | src/lib/time.ts:22-24 | the shown time is the original schedule when it is a non-empty string, otherwise `scheduledAt` |
| Time.DisplayIsoTruthy | src/lib/time.ts:22-24 | the shown time is blank iff there is no original and `scheduledAt` is blank |
| Time.DisplayIsoIgnoresReschedule | src/lib/time.ts:22-24 | with an original present, changing `scheduledAt` does not change the shown time |
| Time.FormatLocal | src/lib/time.ts:26-33 | a blank input gives the placeholder; otherwise the formatter's text, or the input itself when formatting throws |
| Schedule.IsFutureEarlier | src/components/SchedulePanel.tsx:20-23 | upcoming now implies upcoming at every earlier moment (5 s grace, finite parse) |
| Schedule.IsSlot20 | src/components/SchedulePanel.tsx:24-26 | true iff the string has ≥ 16 characters and characters 14–15 are "20" |
| Schedule.IsSlot20Examples | src/components/SchedulePanel.tsx:24-26 | a :20 ISO time passes; a :25 time and a string cut before the minutes do not |
| Schedule.Merged | src/components/SchedulePanel.tsx:66-70 | exactly the upcoming non-null entries of IG followed by YT, in order, each as many times as the input holds it |
| Schedule.FirstPerKeyKeys | src/components/SchedulePanel.tsx:72-81 | de-duplication keeps every key of the input |
| Schedule.FirstPerKeyDistinct | src/components/SchedulePanel.tsx:72-81 | de-duplication leaves each key once |
| Schedule.FirstPerKeyFirstWins | src/components/SchedulePanel.tsx:72-81 | the item kept for a key is the first input item with that key |
| Schedule.FirstPerKeyIsSubseq | src/components/SchedulePanel.tsx:72-81 | de-duplication keeps the input order |
| Schedule.DistinctKeysCount | src/components/SchedulePanel.tsx:72-81 | keys are distinct iff there are as many keys as items |
| Schedule.Dedupe | src/components/SchedulePanel.tsx:72-81 | the seen-set loop equals the first-per-key reference: distinct keys, all input keys, first wins, order kept |
| Schedule.ScheduledLeIsPreorder | src/components/SchedulePanel.tsx:83-85 | the comparison on `String(scheduledAt)` is a total preorder |
| Schedule.OppositeOffsetsByCodePoint | src/components/SchedulePanel.tsx:84 | of two timestamps equal up to the sign of their UTC offset, the model sorts the `+` one strictly first; the source's collation sorts the `-` one first |
| Schedule.UpcomingSchedule | src/components/SchedulePanel.tsx:66-87 | the panel shows only upcoming :20 items from the two queues, one per platform and minute, a permutation of the de-duplicated list, ascending by time, equal times kept in de-duplicated (IG before YT) order |
| Seqs.SortByStable | src/components/SchedulePanel.tsx:83-84 | the sort keeps every class of tied items in input order, as the stable `Array.prototype.sort` does |
| Schedule.DistinctKeysAfterPermutation | src/components/SchedulePanel.tsx:83-85 | sorting keeps the keys distinct |
| Recent.FilterVerifiedRecent | src/utils/recentFilter.ts:2-29 | a non-array gives []; otherwise exactly the truthy entries passing the test, in input order, each as many times as the input holds it |
| Recent.KeptIsPosted | src/utils/recentFilter.ts:10-11 | a kept post's status reads "posted" (any case), from `meta` only when the top-level status is absent |
| Recent.EmptyStatusBlocksFallback | src/utils/recentFilter.ts:10-11 | an empty top-level status is not absent: it hides `meta.status` and the post is dropped |
| Recent.InstagramRule | src/utils/recentFilter.ts:21-26 | a posted Instagram item is kept iff it has a truthy permalink and is fresh |
| Recent.YoutubeRule | src/utils/recentFilter.ts:23-27 | a posted YouTube item is kept iff it has a truthy video id and is fresh |
| Recent.OtherPlatformRule | src/utils/recentFilter.ts:28 | any other posted item is kept iff fresh |
| Recent.PermalinkPrecedence | src/utils/recentFilter.ts:21-22 | `igPermalink`, then `meta.igPermalink`, then `permalink`, skipping only absent values |
| Recent.FreshnessRule | src/utils/recentFilter.ts:14-19 | the time is the first present of postedAt, updatedAt, createdAt, else 0; unparsable is fresh; otherwise fresh iff less than 48 h old |
| Autopilot.FindIndex | src/app/autopilot/page.tsx:335 | the first position whose key equals the id, or −1 when none does |
| Autopilot.Prioritize | src/app/autopilot/page.tsx:334-341 | a permutation: the first item with the id moves to the front, the rest keep their order; unchanged when absent or already first |
| Autopilot.PrioritizeIdempotent | src/app/autopilot/page.tsx:334-341 | prioritizing the same id twice equals prioritizing once |
| Autopilot.Remove | src/app/autopilot/page.tsx:348 | no survivor has the id, every other item keeps its multiplicity, order kept |
| Autopilot.RemoveAfterPrioritize | src/app/autopilot/page.tsx:334-348 | removing after prioritizing equals removing alone |
| Autopilot.RemoveKeylessDropsAllKeyless | src/app/autopilot/page.tsx:346-348 | removing an item with no `_id`, `id` or `videoId` removes every such item |
| Autopilot.RemoveClearsHighlight | src/app/autopilot/page.tsx:346-349 | after removal no remaining row is highlighted (by the key test of line 283) for the removed item |
| Autopilot.Title | src/app/autopilot/page.tsx:282 | the title is never empty: the first non-blank of title, caption, videoId, _id, id, and "Item n" when all five are blank |
| Autopilot.PreviewTitles | src/app/autopilot/page.tsx:233-234 | the preview shows the first min(n, 12) items, row i under the title rule with number i+1 |
| Autopilot.RowNumber | src/app/autopilot/page.tsx:288 | rows of page p are numbered after (p−1)·50, and the first 50 rows within p·50 |
| Autopilot.RowNumbersDistinct | src/app/autopilot/page.tsx:288 | among the first 50 rows of each page, no two rows share a number |
| Autopilot.RowNumbersConsecutive | src/app/autopilot/page.tsx:288 | consecutive rows carry consecutive numbers |
| Autopilot.RowNumbersCollidePastFifty | src/app/autopilot/page.tsx:288 | a 51st row on page p gets the number of row 1 on page p+1, since nothing on the page caps the rows at 50 |
| Autopilot.PagesOf | src/app/autopilot/page.tsx:111 | the page count is the server's whenever it is truthy, a negative count included, and 1 when it is missing or 0 |
| Autopilot.PrevPage | src/app/autopilot/page.tsx:307 | one page back, never below 1 |
| Autopilot.NextPage | src/app/autopilot/page.tsx:308 | one page on, never past the last |
| Autopilot.PagingStaysInRange | src/app/autopilot/page.tsx:307-308 | from a page within [1, pages] both buttons stay within [1, pages] |
| Autopilot.SortByDisplayTime | src/app/autopilot/page.tsx:273-280 | the modal list is a permutation of the queue, ascending by displayed time, equal times in queue order |
| Autopilot.SortOverridesPrioritize | src/app/autopilot/page.tsx:334-341 | after the modal's sort, a prioritized queue shows the same displayed time in every row as the unprioritized one: the move to the front is not visible |
| Autopilot.UntimedSortsAtEpoch | src/app/autopilot/page.tsx:275-278 | an item with no displayed time sorts with key 0 |
| Heatmap.ScaleMax | src/components/ActivityHeatmap.tsx:23 | the server maximum when truthy; otherwise ≥ 1, ≥ every cell, and 1 or a cell; never 0 |
| Heatmap.ScaleMaxWithoutPositiveCells | src/components/ActivityHeatmap.tsx:23 | with no server maximum and no cell above 1 (an empty matrix, say) the scale is 1 |
| Heatmap.RampPosition | src/components/ActivityHeatmap.tsx:25 | 0 for counts ≤ 0, within [0, 1] up to a positive scale, 1 at the scale |
| Heatmap.ColorFor | src/components/ActivityHeatmap.tsx:24-30 | counts ≤ 0 are rgb(20,80,120); a count equal to a positive scale is rgb(255,140,40) |
| Heatmap.ColorBounds | src/components/ActivityHeatmap.tsx:26-28 | up to the scale, r ∈ [20,255], g ∈ [80,140], b ∈ [40,120] |
| Heatmap.ColorOverflowExample | src/components/ActivityHeatmap.tsx:25-26 | a count above the scale pushes red past 255 (2 on a scale of 1 gives 490) |
| Heatmap.ColorMonotone | src/components/ActivityHeatmap.tsx:25-28 | on a positive scale r and g never fall and b never rises as the count grows |
| Heatmap.Legend | src/components/ActivityHeatmap.tsx:53-56 | five entries at stops 0, ¼, ½, ¾, 1 with labels round(t·max), from the cold colour labelled 0 to the hot colour labelled round(max) |
| Heatmap.LegendOrdered | src/components/ActivityHeatmap.tsx:53-56 | on a positive scale the labels rise and the swatch colours move in order: red and green never fall, blue never rises |
| Heatmap.FallbackMatrix | src/components/ActivityHeatmap.tsx:17-18 | after a failure the matrix is 7 rows of 24 zeros |
| Heatmap.FallbackIsCold | src/components/ActivityHeatmap.tsx:17-23 | after a failure the scale is 1 and every cell is the cold colour |
| Heatmap.ColumnCount | src/components/ActivityHeatmap.tsx:36 | the grid has as many columns as the first row, 0 for an empty matrix |
| Api.Tokens | src/utils/api.ts:5 | the split-and-filter yields non-empty separator-free tokens, none iff the input is all separators, the first being the run after the leading separators |
| Api.FirstToken | src/utils/api.ts:5 | the first token has no separators and is empty iff the input is all separators |
| Api.FirstTokenOfToken | src/utils/api.ts:5 | a non-empty separator-free string is its own first token |
| Api.Trim | src/utils/api.ts:5 | trimming keeps a contiguous stretch of the input, cuts only white space before and after it, leaves no white space at either end, and changes a string without white space not at all |
| Api.RepairScheme | src/utils/api.ts:8-9 | a leading `http//` or `https//`, in any case, becomes lower-case `http://` or `https://`; other strings are unchanged |
| Api.StripTrailingSlashes | src/utils/api.ts:15 | the longest prefix not ending in `/`; only slashes are removed |
| Api.WithScheme | src/utils/api.ts:11-13 | `https://` is prefixed iff no `http://`/`https://` (any case) leads |
| Api.NormalizeBaseUrl | src/utils/api.ts:1-17 | the fallback `http://localhost:10000` for an absent, empty or all-separator value; never empty, never ending in `/`, no separators |
| Api.NormalizeKeepsScheme | src/utils/api.ts:11-15 | a token with a scheme keeps it, in its own case, losing only trailing slashes |
| Api.NormalizeAddsHttps | src/utils/api.ts:11-15 | a bare host gets `https://` |
| Api.NormalizeRepairsColon | src/utils/api.ts:8-15 | `http//host` and `https//host` are read with the colon restored |
| Api.NormalizeIdempotent | src/utils/api.ts:1-17 | normalising a result that still has its scheme changes nothing |
| Api.NormalizeBareScheme | src/utils/api.ts:15 | `https://` normalises to `https:`, so the scheme does not always survive |
| Api.NormalizeSchemeless | src/utils/api.ts:11-13 | `https:`, in any letter case, normalises to itself behind a second `https://`, so normalisation is not idempotent in general |
| Api.NormalizeListExample | src/utils/api.ts:5-15 | of " h/,b" only the first entry counts: it becomes `https://h` |
| Api.PathOf | src/utils/api.ts:24-79 | every fixed endpoint path lies under `/api/` |
| Api.BurstEndpointsShareAPath | src/utils/api.ts:35-36 | the burst GET and POST endpoints are one path |
| Api.WithBase | src/utils/api.ts:21 | the URL is the base followed by the path, both recoverable |
| Api.SingleSlashAtJoin | src/utils/api.ts:15-21 | a normalised base and an endpoint path meet at exactly one slash |
| Api.QueryRoundTrip | src/utils/api.ts:27-28 | reading a rendered query back yields its parameters when keys have no `=`/`&` and values no `&` |
| Api.QueueParams | src/utils/api.ts:27-28 | `limit` (default 50), `page` (default 1), then encoded `platform` and `q` each only when non-empty, in that order |
| Api.AutopilotQueue | src/utils/api.ts:27-28 | the queue URL is the base and `/api/autopilot/queue` followed by its query |
| Api.AutopilotQueueReadsBack | src/utils/api.ts:27-28 | the queue URL's query reads back as exactly those parameters when the encoder emits no `&` |
| Api.FeedParams | src/utils/api.ts:46-47 | `platform` verbatim when non-empty, then `limit` (default 20) |
| Api.ActivityFeed | src/utils/api.ts:46-47 | the feed URL is the base and `/api/activity/feed` followed by its query |
| Api.ActivityFeedReadsBack | src/utils/api.ts:46-47 | a platform without `&` reads back unchanged |
| Api.ActivityFeedUnencoded | src/utils/api.ts:47 | the feed platform is not encoded: an `&` in it cuts the platform short when read back |
| Api.EventsRecent | src/utils/api.ts:53 | the events URL is the base and `/api/events/recent` followed by its query |
| Api.EventsRecentReadsBack | src/utils/api.ts:53 | the events URL carries exactly the `since` parameter |

## Left out

- Canvas drawing, `requestAnimationFrame`, and resize and device-pixel-ratio handling in `ChartLines.tsx` are side effects. The model keeps the quantities drawn: path heights, sparkle positions, ticks, the tooltip and the clock. It does not model the strokes.
- The chart's animation effect returns no cleanup. Its frame loops are not cancelled when the effect re-runs, and each new loop restarts the clock at 0. The model has one clock, `Chart.ClockAfter`, counted from its own start.
- Chart.ScrollIndex: a series of exactly one sample makes the source compute `x % 0` (NaN). The path model requires at least two samples, and the sparkle and hover models treat one sample directly.
- The model uses exact reals, not IEEE-754 floating point. Rounding errors, NaN and Infinity are therefore not modelled.
- `ChartWave.tsx` and `HeatmapWeekly.tsx` are not part of this model. They are floating-point animation and a single `min`.
- `UpcomingScheduleClient.tsx` is not part of this model. It relies on `upcomingBoth` and `diagScheduleStatus`, which `src/utils/api.ts` does not define, and on `fmtLocalLabel`, `isExactSlot` and `isFuture`, which `src/lib/time.ts` does not define. Those modules are not part of this model.
- Fetching, `async` plumbing, `localStorage`, timers and randomness are out of scope.
- The autopilot page's DOM toggles, the burst no-ops and the diagnostics fetch are out of scope.
- `autopilotQueueRemoveEndpoint`, used by the Remove button, is not defined in `api.ts`. Only the local, optimistic removal is modelled.
- Schedule.ScheduledLeIsPreorder: `localeCompare` is read as code-point order, and the locale's collation is not modelled. The two orders agree for ISO timestamps written in one format, with `Z` or same-sign offsets and upper-case `T` and `Z`. They depart in two known ways:
  - Opposite-sign offsets: the collation ranks `-` (punctuation) before `+` (a symbol), while code points put `+` first. Schedule.OppositeOffsetsByCodePoint shows the model's order, which is the reverse of the source's.
  - Letter case: lower-case `t` or `z`, which RFC 3339 allows, breaks ties the other way at the collation's case level.
- Strings are sequences of Unicode scalar values, not UTF-16 code units. So `slice` positions (Js.Slice, used by Schedule.IsSlot20, Schedule.Key and Chart.TickLabel) and string comparison (Js.StrLe) count code points. Once a character outside the Basic Multilingual Plane comes before a cut, the model cuts at a different place than JavaScript; above U+FFFF code-point order also differs from code-unit order. ISO timestamps are ASCII, so neither case arises for them.
- Recent.StatusOf and Recent.PlatformOf lower-case ASCII letters only. The strings they are compared with ("posted", "instagram", "youtube") are ASCII, so no comparison changes.
- Schedule.Key lower-cases ASCII letters only. Two platform names that differ only in the case of a non-ASCII letter share a de-duplication key in the source but not in the model.
- Autopilot.SortByDisplayTime: the source sorts the `queueItems` state array in place on every render of the modal; the model returns a sorted copy. Autopilot.SortOverridesPrioritize states the visible consequence for the modal. The preview card, which reads the same array, also shows the sorted order once the modal has rendered; that is not modelled.
- Autopilot.SortByDisplayTime: unparsable times (NaN keys) are not modelled. The parser returns an integer, so the comparator is always consistent.
- Autopilot.RowNumber: the page requests 50 items per page but does not cap what the server returns. The model states the numbering for any row count. Autopilot.RowNumbersDistinct holds only for the first 50 rows of each page, and Autopilot.RowNumbersCollidePastFifty shows the clash beyond them.
- Api.AutopilotQueue: the extra filter arguments the page passes (status, scheduled, date) are ignored by the source and are not parameters here.
- Api.PathOf: the paths are not proved free of `?`.
- Time.FormatLocal: the dayjs time-zone formatting is the `format` parameter. `None` stands for the formatter throwing.
- The heatmap's cell titles, row and column labels and the footer ("Window", "Total") are markup and are not modelled.

=== FILE: api.dfy ===
/**
 The API client's URL construction: normalising the configured base URL,
 joining it with each endpoint's fixed path, and the query strings of the
 parameterised endpoints. `encodeURIComponent` is a parameter.
 */
module Api {
  import opened Js

  // ---------------------------------------------------------------------------
  // Tokenising the configured value

  /** The characters the regular-expression class `\s` matches. */
  predicate IsSpace(c: char) {
    || c == '\t' || c == '\n' || c == '\U{B}' || c == '\U{C}' || c == '\r' || c == ' '
    || c == '\U{A0}' || c == '\U{1680}' || '\U{2000}' <= c <= '\U{200A}'
    || c == '\U{2028}' || c == '\U{2029}' || c == '\U{202F}' || c == '\U{205F}'
    || c == '\U{3000}' || c == '\U{FEFF}'
  }

  /** The characters of the split pattern `[\s,]`. */
  predicate IsSeparator(c: char) {
    IsSpace(c) || c == ','
  }

  predicate NoSeparators(s: string) {
    forall i :: 0 <= i < |s| ==> !IsSeparator(s[i])
  }

  /** The longest separator-free prefix. */
  function TakeToken(s: string): (r: string)
    ensures |r| <= |s| && r == s[..|r|]
    ensures NoSeparators(r)
    ensures |r| == |s| || IsSeparator(s[|r|])
  {
    if |s| == 0 || IsSeparator(s[0]) then ""
    else
      var t := TakeToken(s[1..]);
      assert s[1..][..|t|] == s[1..|t| + 1];
      [s[0]] + t
  }

  /** How many separators lead `s`. */
  function LeadingSeparators(s: string): (n: nat)
    ensures n <= |s|
    ensures forall i :: 0 <= i < n ==> IsSeparator(s[i])
    ensures n == |s| || !IsSeparator(s[n])
  {
    if |s| > 0 && IsSeparator(s[0]) then 1 + LeadingSeparators(s[1..]) else 0
  }

  /**
   `s.split(/[\s,]+/).filter(Boolean)`: the maximal separator-free runs, in
   order. There are none exactly when every character is a separator, and
   the first is the run after the leading separators.
   */
  function Tokens(s: string): (r: seq<string>)
    ensures forall i :: 0 <= i < |r| ==> |r[i]| > 0 && NoSeparators(r[i])
    ensures |r| == 0 <==> forall i :: 0 <= i < |s| ==> IsSeparator(s[i])
    ensures |r| > 0 ==> r[0] == TakeToken(s[LeadingSeparators(s)..])
    decreases |s|
  {
    if |s| == 0 then []
    else if IsSeparator(s[0]) then
      var rest := Tokens(s[1..]);
      assert forall i :: 1 <= i < |s| ==> s[i] == s[1..][i - 1];
      assert s[1..][LeadingSeparators(s[1..])..] == s[LeadingSeparators(s)..];
      rest
    else
      var t := TakeToken(s);
      [t] + Tokens(s[|t|..])
  }

  /** `(tokens[0] || '')` */
  function FirstToken(s: string): (r: string)
    ensures NoSeparators(r)
    ensures r == "" <==> forall i :: 0 <= i < |s| ==> IsSeparator(s[i])
  {
    var ts := Tokens(s);
    if |ts| > 0 then ts[0] else ""
  }

  /** A non-empty string without separators is its own single token. */
  lemma FirstTokenOfToken(s: string)
    requires |s| > 0 && NoSeparators(s)
    ensures FirstToken(s) == s
  {
    assert LeadingSeparators(s) == 0;
    assert s[0..] == s;
  }

  function TrimStart(s: string): (r: string)
    ensures |r| <= |s| && r == s[|s| - |r|..]
    ensures |r| > 0 ==> !IsSpace(r[0])
  {
    if |s| > 0 && IsSpace(s[0]) then TrimStart(s[1..]) else s
  }

  function TrimEnd(s: string): (r: string)
    ensures |r| <= |s| && r == s[..|r|]
    ensures |r| > 0 ==> !IsSpace(r[|r| - 1])
  {
    if |s| > 0 && IsSpace(s[|s| - 1]) then TrimEnd(s[..|s| - 1]) else s
  }

  /** `r` is the stretch of `s` starting at `i`, with only white space before and after it. */
  predicate TrimmedAt(s: string, r: string, i: nat) {
    && i + |r| <= |s| && r == s[i..i + |r|]
    && (forall k :: 0 <= k < i ==> IsSpace(s[k]))
    && (forall k :: i + |r| <= k < |s| ==> IsSpace(s[k]))
  }

  /**
   `String.prototype.trim`: a contiguous stretch of the input with only white
   space cut from either end, and no white space left at either end.
   */
  function Trim(s: string): (r: string)
    ensures exists i :: TrimmedAt(s, r, i)
    ensures |r| > 0 ==> !IsSpace(r[0]) && !IsSpace(r[|r| - 1])
    ensures (forall i :: 0 <= i < |s| ==> !IsSpace(s[i])) ==> r == s
  {
    var a := TrimStart(s);
    var r := TrimEnd(a);
    assert |r| > 0 ==> r[0] == a[0];
    TrimBothEnds(s);
    r
  }

  lemma TrimBothEnds(s: string)
    ensures TrimmedAt(s, TrimEnd(TrimStart(s)), |s| - |TrimStart(s)|)
  {
    TrimStartSkipsSpace(s);
    TrimEndSkipsSpace(TrimStart(s));
    StretchOfStretch(s, TrimStart(s), TrimEnd(TrimStart(s)));
  }

  lemma StretchOfStretch(s: string, a: string, r: string)
    requires |a| <= |s| && a == s[|s| - |a|..] && |r| <= |a| && r == a[..|r|]
    requires forall k :: 0 <= k < |s| - |a| ==> IsSpace(s[k])
    requires forall k :: |r| <= k < |a| ==> IsSpace(a[k])
    ensures TrimmedAt(s, r, |s| - |a|)
  {
    var i := |s| - |a|;
    assert r == s[i..i + |r|];
    forall k | i + |r| <= k < |s| ensures IsSpace(s[k]) {
      assert s[k] == a[k - i];
    }
  }

  lemma {:induction false} TrimStartSkipsSpace(s: string)
    ensures forall k :: 0 <= k < |s| - |TrimStart(s)| ==> IsSpace(s[k])
  {
    if |s| > 0 && IsSpace(s[0]) {
      TrimStartSkipsSpace(s[1..]);
      assert forall k :: 1 <= k < |s| ==> s[k] == s[1..][k - 1];
    }
  }

  lemma {:induction false} TrimEndSkipsSpace(s: string)
    ensures forall k :: |TrimEnd(s)| <= k < |s| ==> IsSpace(s[k])
  {
    if |s| > 0 && IsSpace(s[|s| - 1]) {
      TrimEndSkipsSpace(s[..|s| - 1]);
    }
  }

  // ---------------------------------------------------------------------------
  // Scheme repair and trailing slashes

  /** `s` starts with the lower-case `prefix`, ignoring ASCII case (a regular expression anchored with `^` and flagged `i`). */
  predicate StartsWithIgnoreCase(s: string, prefix: string) {
    |s| >= |prefix| && EqualsIgnoreCase(s[..|prefix|], prefix)
  }

  /** `/^https?:\/\//i` */
  predicate HasScheme(s: string) {
    StartsWithIgnoreCase(s, "http://") || StartsWithIgnoreCase(s, "https://")
  }

  /** `s.replace(/^http\/\//i, 'http://')` followed by `.replace(/^https\/\//i, 'https://')`. */
  function RepairScheme(s: string): (r: string)
    ensures StartsWithIgnoreCase(s, "http//") ==> r == "http://" + s[6..]
    ensures StartsWithIgnoreCase(s, "https//") ==> r == "https://" + s[7..]
    ensures !StartsWithIgnoreCase(s, "http//") && !StartsWithIgnoreCase(s, "https//") ==> r == s
    ensures NoSeparators(s) ==> NoSeparators(r)
  {
    var a := if StartsWithIgnoreCase(s, "http//") then "http://" + s[6..] else s;
    assert StartsWithIgnoreCase(s, "https//") ==> !StartsWithIgnoreCase(s, "http//") by {
      if StartsWithIgnoreCase(s, "https//") {
        assert ToLower(s[..7])[4] == 's';
        assert ToLower(s[..6])[4] == LowerChar(s[4]);
      }
    }
    assert StartsWithIgnoreCase(s, "http//") ==> !StartsWithIgnoreCase(a, "https//") by {
      if StartsWithIgnoreCase(s, "http//") {
        assert ToLower(a[..7])[4] == LowerChar(a[4]) == ':';
      }
    }
    if StartsWithIgnoreCase(a, "https//") then "https://" + a[7..]
    else a
  }

  /** `s.replace(/\/+$/, '')`: the longest prefix not ending in `/`; only slashes are removed. */
  function StripTrailingSlashes(s: string): (r: string)
    ensures |r| <= |s| && r == s[..|r|]
    ensures |r| == 0 || r[|r| - 1] != '/'
    ensures forall i :: |r| <= i < |s| ==> s[i] == '/'
  {
    if |s| > 0 && s[|s| - 1] == '/' then StripTrailingSlashes(s[..|s| - 1]) else s
  }

  /** Prefixes `https://` unless an `http://` or `https://` (in any case) already leads. */
  function WithScheme(s: string): (r: string)
    ensures HasScheme(s) ==> r == s
    ensures !HasScheme(s) ==> r == "https://" + s
    ensures HasScheme(r)
    ensures |r| > 4 && r[4] != '/'
    ensures NoSeparators(s) ==> NoSeparators(r)
  {
    assert HasScheme(s) ==> LowerChar(s[4]) == ToLower(s[..5])[4];
    assert HasScheme("https://" + s) by {
      assert ("https://" + s)[..8] == "https://";
    }
    if HasScheme(s) then s else "https://" + s
  }

  const Fallback := "http://localhost:10000"

  lemma FallbackShape()
    ensures |Fallback| > 0 && Fallback[|Fallback| - 1] != '/' && NoSeparators(Fallback)
  {
    assert Fallback[|Fallback| - 1] == '0';
  }

  /**
   `normalizeBaseUrl`: the fallback for a missing value or one made only of
   separators; otherwise the first token, with a missing colon repaired,
   `https://` added when no `http://` or `https://` leads it, and trailing
   slashes removed. The result is never empty, never ends in `/` and holds
   no separator.
   */
  function NormalizeBaseUrl(raw: Option<string>): (r: string)
    ensures !Truthy(raw) ==> r == Fallback
    ensures Truthy(raw) && (forall i :: 0 <= i < |raw.value| ==> IsSeparator(raw.value[i])) ==> r == Fallback
    ensures |r| > 0 && r[|r| - 1] != '/'
    ensures NoSeparators(r)
  {
    FallbackShape();
    if !Truthy(raw) then Fallback
    else
      var source := Trim(FirstToken(raw.value));
      assert source == FirstToken(raw.value);
      if source == "" then Fallback
      else
        var schemed := WithScheme(RepairScheme(source));
        assert |StripTrailingSlashes(schemed)| > 4;
        StripTrailingSlashes(schemed)
  }

  /** A token already carrying a scheme needs no colon repair. */
  lemma SchemeNeedsNoRepair(s: string)
    requires HasScheme(s)
    ensures RepairScheme(s) == s
  {
    var c4 := LowerChar(s[4]);
    assert c4 == ToLower(s[..7])[4] == ToLower(s[..6])[4];
    if StartsWithIgnoreCase(s, "https://") {
      assert LowerChar(s[5]) == ToLower(s[..8])[5] == ToLower(s[..7])[5] == ':';
    }
  }

  /** A token that already says `http://` or `https://` keeps its scheme, in its own case; only trailing slashes go. */
  lemma NormalizeKeepsScheme(raw: string)
    requires HasScheme(FirstToken(raw))
    ensures NormalizeBaseUrl(Some(raw)) == StripTrailingSlashes(FirstToken(raw))
  {
    SchemeNeedsNoRepair(FirstToken(raw));
  }

  /** A bare host gets `https://`. */
  lemma NormalizeAddsHttps(raw: string)
    requires FirstToken(raw) != ""
    requires !HasScheme(FirstToken(raw))
    requires !StartsWithIgnoreCase(FirstToken(raw), "http//") && !StartsWithIgnoreCase(FirstToken(raw), "https//")
    ensures NormalizeBaseUrl(Some(raw)) == StripTrailingSlashes("https://" + FirstToken(raw))
  {
  }

  /** `http//host` and `https//host`, in any case, are read as the lower-case scheme with its colon restored. */
  lemma NormalizeRepairsColon(raw: string)
    requires StartsWithIgnoreCase(FirstToken(raw), "http//") || StartsWithIgnoreCase(FirstToken(raw), "https//")
    ensures var t := FirstToken(raw);
      NormalizeBaseUrl(Some(raw)) ==
        if StartsWithIgnoreCase(t, "http//") then StripTrailingSlashes("http://" + t[6..])
        else StripTrailingSlashes("https://" + t[7..])
  {
    var t := FirstToken(raw);
    var a := RepairScheme(t);
    assert a[..7] == "http://" || a[..8] == "https://";
    SchemeNeedsNoRepair(a);
  }

  /** Normalising a result that still has its scheme changes nothing. */
  lemma NormalizeIdempotent(raw: Option<string>)
    requires HasScheme(NormalizeBaseUrl(raw))
    ensures NormalizeBaseUrl(Some(NormalizeBaseUrl(raw))) == NormalizeBaseUrl(raw)
  {
    var r := NormalizeBaseUrl(raw);
    FirstTokenOfToken(r);
    NormalizeKeepsScheme(r);
  }

  /** A bare scheme loses its slashes: `https://` becomes `https:`. */
  lemma NormalizeBareScheme(t: string)
    requires t == "https://"
    ensures NormalizeBaseUrl(Some(t)) == "https:"
  {
    BareSchemeToken(t);
    FirstTokenOfToken(t);
    NormalizeKeepsScheme(t);
    StripBareScheme(t);
  }

  lemma BareSchemeToken(t: string)
    requires t == "https://"
    ensures HasScheme(t) && NoSeparators(t)
  {
    assert ToLower(t[..8]) == "https://";
  }

  lemma StripBareScheme(t: string)
    requires t == "https://"
    ensures StripTrailingSlashes(t) == "https:"
  {
    assert StripTrailingSlashes(t) == StripTrailingSlashes(t[..7]);
    assert t[..7][..6] == t[..6];
    assert t[..7][6] == '/';
    assert StripTrailingSlashes(t[..7]) == StripTrailingSlashes(t[..6]);
    assert t[..6][5] == ':';
    assert t[..6] == "https:";
  }

  /** Normalising `https:`, in any case, adds a second scheme, so the result for a bare scheme is not a fixed point. */
  lemma NormalizeSchemeless(t: string)
    requires EqualsIgnoreCase(t, "https:")
    ensures NormalizeBaseUrl(Some(t)) == "https://" + t
  {
    SchemelessToken(t);
    BareHostGetsHttps(t);
  }

  /** A whole token with no scheme, no broken scheme and no trailing slash comes back with `https://` in front and nothing else changed. */
  lemma BareHostGetsHttps(t: string)
    requires |t| > 0 && NoSeparators(t) && !HasScheme(t) && t[|t| - 1] != '/'
    requires !StartsWithIgnoreCase(t, "http//") && !StartsWithIgnoreCase(t, "https//")
    ensures NormalizeBaseUrl(Some(t)) == "https://" + t
  {
    FirstTokenOfToken(t);
    NormalizeAddsHttps(t);
    var u := "https://" + t;
    assert u[|u| - 1] == t[|t| - 1];
  }

  lemma SchemelessToken(t: string)
    requires EqualsIgnoreCase(t, "https:")
    ensures |t| > 0 && NoSeparators(t) && !HasScheme(t) && t[|t| - 1] != '/'
    ensures !StartsWithIgnoreCase(t, "http//") && !StartsWithIgnoreCase(t, "https//")
  {
    assert |t| == |ToLower(t)| == 6;
    assert t[..6] == t;
    assert LowerChar(t[4]) == 's';
    assert LowerChar(t[5]) == ':';
    assert forall i :: 0 <= i < |t| ==> !IsSeparator(t[i]) by {
      forall i | 0 <= i < |t| ensures !IsSeparator(t[i]) {
        assert LowerChar(t[i]) == "https:"[i];
      }
    }
  }

  /** Only the first entry of a list counts. */
  lemma NormalizeListExample(raw: string)
    requires raw == " h/,b"
    ensures NormalizeBaseUrl(Some(raw)) == "https://h"
  {
    var t := "h/";
    ListExampleToken(raw, t);
    assert !HasScheme(t) && !StartsWithIgnoreCase(t, "http//") && !StartsWithIgnoreCase(t, "https//") by {
      assert |t| < 6;
    }
    NormalizeAddsHttps(raw);
    StripOneSlash("https://" + t);
  }

  lemma ListExampleToken(raw: string, t: string)
    requires raw == " h/,b"
    requires t == "h/"
    ensures FirstToken(raw) == t
  {
    assert raw[1..] == t + ",b";
    assert LeadingSeparators(raw) == 1 by {
      assert raw[1..][0] == 'h';
    }
    assert NoSeparators(t);
    TakeTokenOfPrefix(t, ",b");
  }

  lemma StripOneSlash(u: string)
    requires u == "https://h/"
    ensures StripTrailingSlashes(u) == "https://h"
  {
    assert StripTrailingSlashes(u) == StripTrailingSlashes(u[..|u| - 1]);
    assert u[..|u| - 1][|u| - 2] == 'h';
    assert u[..|u| - 1] == "https://h";
  }

  lemma TakeTokenOfPrefix(t: string, rest: string)
    requires NoSeparators(t)
    requires |rest| > 0 && IsSeparator(rest[0])
    ensures TakeToken(t + rest) == t
  {
    var r := TakeToken(t + rest);
    assert (t + rest)[|t|] == rest[0];
    assert forall i :: 0 <= i < |t| ==> (t + rest)[i] == t[i];
  }

  // ---------------------------------------------------------------------------
  // Endpoints

  /** The fixed-path endpoints. */
  datatype Endpoint =
    | Settings | AutopilotStatus | AutopilotRun | AutopilotRefill | AutopilotManualPost
    | AutopilotQueuePrioritize | AutopilotQueueRemove
    | BurstGet | BurstPost | BurstConfig
    | SchedulerHealth | SchedulerStatus | SchedulerAutofill
    | DiagReport | DiagReset
    | Analytics | InstagramAnalytics | YoutubeAnalytics
    | ChartStatus | QueueSummary | PostNow
    | UploadDragDrop | UploadDragDropAlt | UploadRefreshCaption | UploadGetRealIGCaptions
    | UploadDirectVideo | UploadSmartAnalyze | UploadDropboxFolder | UploadSmartDrive
    | SyncDropbox | UploadDropbox | UploadGoogleDrive
    | HeatmapWeekly | HeatmapOptimal
    | TestCleanup | TestValidateAPIs | TestMongo | TestUpload

  /** Every fixed path lies under `/api/`. */
  function PathOf(e: Endpoint): (p: string)
    ensures |p| > 5 && p[..5] == "/api/"
  {
    "/api/" + Route(e)
  }

  /** The part of each fixed path after `/api/`. */
  function Route(e: Endpoint): (r: string)
    ensures |r| > 0
  {
    match e
    case Settings => "settings"
    case AutopilotStatus => "autopilot/status"
    case AutopilotRun => "autopilot/run"
    case AutopilotRefill => "autopilot/refill"
    case AutopilotManualPost => "autopilot/manual-post"
    case AutopilotQueuePrioritize => "autopilot/queue/prioritize"
    case AutopilotQueueRemove => "autopilot/queue/remove"
    case BurstGet => "burst"
    case BurstPost => "burst"
    case BurstConfig => "burst/config"
    case SchedulerHealth => "scheduler/health"
    case SchedulerStatus => "scheduler/status"
    case SchedulerAutofill => "scheduler/autofill"
    case DiagReport => "diag/autopilot-report"
    case DiagReset => "diag/reset-counters"
    case Analytics => "analytics"
    case InstagramAnalytics => "instagram/analytics"
    case YoutubeAnalytics => "youtube/analytics"
    case ChartStatus => "chart/status"
    case QueueSummary => "queue/summary"
    case PostNow => "post-now"
    case UploadDragDrop => "upload/drag-drop"
    case UploadDragDropAlt => "upload/dragdrop"
    case UploadRefreshCaption => "upload/refresh-caption"
    case UploadGetRealIGCaptions => "upload/get-real-instagram-captions"
    case UploadDirectVideo => "upload/direct-video"
    case UploadSmartAnalyze => "upload/smart-video-analyze"
    case UploadDropboxFolder => "upload/dropbox-folder"
    case UploadSmartDrive => "upload/smart-drive-sync"
    case SyncDropbox => "upload/sync-dropbox"
    case UploadDropbox => "upload/dropbox"
    case UploadGoogleDrive => "upload/google-drive"
    case HeatmapWeekly => "heatmap/weekly"
    case HeatmapOptimal => "heatmap/optimal-times"
    case TestCleanup => "test/cleanup"
    case TestValidateAPIs => "test/validate-apis"
    case TestMongo => "test/mongodb"
    case TestUpload => "test/upload"
  }

  /** The two burst endpoints share one path; they differ only in the HTTP method the caller uses. */
  lemma BurstEndpointsShareAPath()
    ensures PathOf(BurstGet) == PathOf(BurstPost)
  {
  }

  /**
   `withBase(path)`: the base followed by the path. With a normalised base
   and a path under `/api/` exactly one slash joins them, and the base can be
   read back from the front of the URL.
   */
  function WithBase(base: string, path: string): (url: string)
    ensures |url| == |base| + |path| && url[..|base|] == base && url[|base|..] == path
  {
    base + path
  }

  /** A normalised base never doubles the slash that starts an endpoint path. */
  lemma SingleSlashAtJoin(raw: Option<string>, e: Endpoint)
    ensures var base := NormalizeBaseUrl(raw);
      var url := WithBase(base, PathOf(e));
      url[|base| - 1] != '/' && url[|base|] == '/'
  {
  }

  // ---------------------------------------------------------------------------
  // Query strings

  datatype Param = Param(key: string, value: string)

  /** `key=value` pairs joined by `&` behind a `?`; no parameters, no `?`. */
  function RenderQuery(ps: seq<Param>): string {
    if |ps| == 0 then "" else "?" + JoinWith(Pairs(ps), '&')
  }

  function Pairs(ps: seq<Param>): (r: seq<string>)
    ensures |r| == |ps|
    ensures forall i :: 0 <= i < |ps| ==> r[i] == ps[i].key + "=" + ps[i].value
  {
    seq(|ps|, i requires 0 <= i < |ps| => ps[i].key + "=" + ps[i].value)
  }

  function JoinWith(parts: seq<string>, c: char): string
    requires |parts| > 0
  {
    if |parts| == 1 then parts[0] else parts[0] + [c] + JoinWith(parts[1..], c)
  }

  /** Position of the first `c` in `s`. */
  function IndexOf(s: string, c: char): (i: nat)
    requires c in s
    ensures i < |s| && s[i] == c && c !in s[..i]
  {
    if s[0] == c then 0
    else
      var j := IndexOf(s[1..], c);
      assert s[..j + 1] == [s[0]] + s[1..][..j];
      1 + j
  }

  /** The pieces of `s` between occurrences of `c`: `s.split(c)`. */
  function SplitOn(s: string, c: char): (r: seq<string>)
    ensures |r| > 0
    decreases |s|
  {
    if c !in s then [s]
    else
      var i := IndexOf(s, c);
      [s[..i]] + SplitOn(s[i + 1..], c)
  }

  /** A `key=value` piece split at its first `=`; a piece without `=` has the empty value. */
  function SplitPair(s: string): Param {
    if '=' in s then
      var i := IndexOf(s, '=');
      Param(s[..i], s[i + 1..])
    else Param(s, "")
  }

  /** Reads a query string back into its parameters, the inverse of `RenderQuery`. */
  function ParseQuery(q: string): seq<Param> {
    if |q| == 0 || q[0] != '?' then []
    else
      var parts := SplitOn(q[1..], '&');
      seq(|parts|, i requires 0 <= i < |parts| => SplitPair(parts[i]))
  }

  /** A parameter survives the round trip when its key has neither `=` nor `&` and its value has no `&`. */
  predicate Readable(p: Param) {
    '=' !in p.key && '&' !in p.key && '&' !in p.value
  }

  lemma IndexAfterPrefix(a: string, c: char, b: string)
    requires c !in a
    ensures c in a + [c] + b && IndexOf(a + [c] + b, c) == |a|
  {
    var s := a + [c] + b;
    assert s[|a|] == c;
  }

  lemma {:induction false} SplitJoin(parts: seq<string>, c: char)
    requires |parts| > 0
    requires forall i :: 0 <= i < |parts| ==> c !in parts[i]
    ensures SplitOn(JoinWith(parts, c), c) == parts
  {
    if |parts| == 1 {
      assert c !in parts[0];
    } else {
      SplitStep(parts[0], c, JoinWith(parts[1..], c));
      SplitJoin(parts[1..], c);
      assert parts == [parts[0]] + parts[1..];
    }
  }

  /** Splitting peels off the piece before the first separator. */
  lemma SplitStep(a: string, c: char, rest: string)
    requires c !in a
    ensures SplitOn(a + [c] + rest, c) == [a] + SplitOn(rest, c)
  {
    IndexAfterPrefix(a, c, rest);
    var s := a + [c] + rest;
    assert s[..|a|] == a;
    assert s[|a| + 1..] == rest;
  }

  lemma SplitPairJoin(p: Param)
    requires '=' !in p.key
    ensures SplitPair(p.key + "=" + p.value) == p
  {
    IndexAfterPrefix(p.key, '=', p.value);
    var s := p.key + "=" + p.value;
    assert s == p.key + ['='] + p.value;
    assert s[..|p.key|] == p.key;
    assert s[|p.key| + 1..] == p.value;
  }

  /** Rendering and reading back give the parameters unchanged. */
  lemma QueryRoundTrip(ps: seq<Param>)
    requires forall i :: 0 <= i < |ps| ==> Readable(ps[i])
    ensures ParseQuery(RenderQuery(ps)) == ps
  {
    if |ps| > 0 {
      var parts := Pairs(ps);
      forall i | 0 <= i < |parts|
        ensures '&' !in parts[i]
      {
        assert parts[i] == ps[i].key + "=" + ps[i].value;
      }
      SplitJoin(parts, '&');
      assert RenderQuery(ps)[1..] == JoinWith(parts, '&');
      forall i | 0 <= i < |ps|
        ensures SplitPair(parts[i]) == ps[i]
      {
        SplitPairJoin(ps[i]);
      }
    }
  }

  // ---------------------------------------------------------------------------
  // Parameterised endpoints

  const QueuePath := "/api/autopilot/queue"
  const FeedPath := "/api/activity/feed"
  const EventsPath := "/api/events/recent"

  /** A defaulted parameter: the default applies only when the argument is absent. */
  function Default(x: Option<int>, d: int): int {
    if x.Some? then x.value else d
  }

  /** Decimal renderings hold neither `&` nor `=`. */
  lemma NumberIsReadable(key: string, n: int)
    requires '=' !in key && '&' !in key
    ensures Readable(Param(key, IntToString(n)))
  {
    var r := IntToString(n);
    assert forall i :: 0 <= i < |r| ==> r[i] == '-' || IsDigit(r[i]) by {
      if n < 0 {
        assert forall i :: 1 <= i < |r| ==> r[i] == r[1..][i - 1];
      }
    }
  }

  /**
   The parameters of `autopilotQueue`: always `limit` (default 50) then `page`
   (default 1), then `platform` and `q`, URI-encoded, each only when
   non-empty, in that order.
   */
  function QueueParams(platform: Option<string>, limit: Option<int>, page: Option<int>, q: Option<string>,
                       encode: string -> string): (ps: seq<Param>)
    ensures |ps| == 2 + (if Truthy(platform) then 1 else 0) + (if Truthy(q) then 1 else 0)
    ensures ps[0] == Param("limit", IntToString(Default(limit, 50)))
    ensures ps[1] == Param("page", IntToString(Default(page, 1)))
    ensures Truthy(platform) ==> ps[2] == Param("platform", encode(platform.value))
    ensures Truthy(q) ==> ps[|ps| - 1] == Param("q", encode(q.value))
  {
    [Param("limit", IntToString(Default(limit, 50))), Param("page", IntToString(Default(page, 1)))]
    + (if Truthy(platform) then [Param("platform", encode(platform.value))] else [])
    + (if Truthy(q) then [Param("q", encode(q.value))] else [])
  }

  /** `API_ENDPOINTS.autopilotQueue(platform, limit, page, q)` */
  function AutopilotQueue(base: string, platform: Option<string>, limit: Option<int>, page: Option<int>,
                          q: Option<string>, encode: string -> string): (url: string)
    ensures |url| >= |base| + |QueuePath| && url[..|base| + |QueuePath|] == base + QueuePath
  {
    WithBase(base, QueuePath + RenderQuery(QueueParams(platform, limit, page, q, encode)))
  }

  /**
   Reading the queue URL's query back gives exactly its parameters, provided
   the encoder leaves no `&` in what it encodes (as `encodeURIComponent` does).
   */
  lemma AutopilotQueueReadsBack(base: string, platform: Option<string>, limit: Option<int>, page: Option<int>,
                                q: Option<string>, encode: string -> string)
    requires Truthy(platform) ==> '&' !in encode(platform.value)
    requires Truthy(q) ==> '&' !in encode(q.value)
    ensures var url := AutopilotQueue(base, platform, limit, page, q, encode);
      ParseQuery(url[|base| + |QueuePath|..]) == QueueParams(platform, limit, page, q, encode)
  {
    var ps := QueueParams(platform, limit, page, q, encode);
    QueueParamsReadable(platform, limit, page, q, encode);
    QueryRoundTrip(ps);
    QueryAfterPath(base, QueuePath, ps);
  }

  lemma QueueParamsReadable(platform: Option<string>, limit: Option<int>, page: Option<int>,
                            q: Option<string>, encode: string -> string)
    requires Truthy(platform) ==> '&' !in encode(platform.value)
    requires Truthy(q) ==> '&' !in encode(q.value)
    ensures var ps := QueueParams(platform, limit, page, q, encode);
      forall i :: 0 <= i < |ps| ==> Readable(ps[i])
  {
    NumberIsReadable("limit", Default(limit, 50));
    NumberIsReadable("page", Default(page, 1));
  }

  /** The query of a URL built as base, path and query starts right after the path. */
  lemma QueryAfterPath(base: string, path: string, ps: seq<Param>)
    ensures var url := WithBase(base, path + RenderQuery(ps));
      |url| >= |base| + |path| && url[|base| + |path|..] == RenderQuery(ps)
  {
    var url := WithBase(base, path + RenderQuery(ps));
    assert url == (base + path) + RenderQuery(ps);
  }

  /** The parameters of `activityFeed`: `platform`, verbatim, when non-empty, then `limit` (default 20). */
  function FeedParams(platform: Option<string>, limit: Option<int>): (ps: seq<Param>)
    ensures |ps| > 0 && ps[|ps| - 1] == Param("limit", IntToString(Default(limit, 20)))
    ensures Truthy(platform) ==> |ps| == 2 && ps[0] == Param("platform", platform.value)
    ensures !Truthy(platform) ==> |ps| == 1
  {
    var l := Param("limit", IntToString(Default(limit, 20)));
    if Truthy(platform) then [Param("platform", platform.value), l] else [l]
  }

  /** `API_ENDPOINTS.activityFeed(platform, limit)` */
  function ActivityFeed(base: string, platform: Option<string>, limit: Option<int>): (url: string)
    ensures |url| >= |base| + |FeedPath| && url[..|base| + |FeedPath|] == base + FeedPath
  {
    WithBase(base, FeedPath + RenderQuery(FeedParams(platform, limit)))
  }

  /** A platform without `&` reads back unchanged from the feed URL. */
  lemma ActivityFeedReadsBack(base: string, platform: Option<string>, limit: Option<int>)
    requires Truthy(platform) ==> '&' !in platform.value
    ensures var url := ActivityFeed(base, platform, limit);
      ParseQuery(url[|base| + |FeedPath|..]) == FeedParams(platform, limit)
  {
    var ps := FeedParams(platform, limit);
    FeedParamsReadable(platform, limit);
    QueryRoundTrip(ps);
    QueryAfterPath(base, FeedPath, ps);
  }

  lemma FeedParamsReadable(platform: Option<string>, limit: Option<int>)
    requires Truthy(platform) ==> '&' !in platform.value
    ensures var ps := FeedParams(platform, limit);
      forall i :: 0 <= i < |ps| ==> Readable(ps[i])
  {
    var ps := FeedParams(platform, limit);
    NumberIsReadable("limit", Default(limit, 20));
    assert Readable(ps[|ps| - 1]);
    if Truthy(platform) {
      assert Readable(ps[0]);
    }
  }

  lemma IndexInPrefix(a: string, b: string, c: char)
    requires c in a
    ensures c in a + b && IndexOf(a + b, c) == IndexOf(a, c)
  {
    var i := IndexOf(a, c);
    assert (a + b)[i] == c;
    assert (a + b)[..i] == a[..i];
  }

  lemma IndexAfterFree(a: string, b: string, c: char)
    requires c !in a && c in b
    ensures c in a + b && IndexOf(a + b, c) == |a| + IndexOf(b, c)
  {
    var s := a + b;
    var j := IndexOf(b, c);
    assert s[|a| + j] == c;
    assert s[..|a| + j] == a + b[..j];
  }

  /** The feed's query string, spelled out. */
  lemma FeedQueryShape(platform: Option<string>, limit: Option<int>)
    requires Truthy(platform)
    ensures RenderQuery(FeedParams(platform, limit))
      == "?" + ("platform" + "=" + platform.value + (['&'] + ("limit" + "=" + IntToString(Default(limit, 20)))))
  {
    var ps := FeedParams(platform, limit);
    var parts := Pairs(ps);
    var tail := "limit" + "=" + IntToString(Default(limit, 20));
    assert parts[0] == "platform" + "=" + platform.value && parts[1] == tail;
    assert JoinWith(parts[1..], '&') == tail;
  }

  /** A key whose value holds an `&` is read back with the value cut at that `&`. */
  lemma CutAtAmpersand(key: string, value: string, rest: string)
    requires '=' !in key && '&' !in key && '&' in value
    ensures var parsed := ParseQuery("?" + (key + "=" + value + rest));
      |parsed| > 0 && parsed[0] == Param(key, value[..IndexOf(value, '&')])
  {
    var body := key + "=" + value + rest;
    FirstPiece(key, value, rest);
    assert ("?" + body)[1..] == body;
    ParseFirst("?" + body);
  }

  lemma AmpersandIndex(key: string, value: string, rest: string)
    requires '&' !in key && '&' in value
    ensures var body := key + "=" + value + rest;
      '&' in body && IndexOf(body, '&') == |key| + 1 + IndexOf(value, '&')
  {
    var body := key + "=" + value + rest;
    var lead := key + "=";
    assert body == lead + (value + rest);
    IndexInPrefix(value, rest, '&');
    IndexAfterFree(lead, value + rest, '&');
  }

  lemma FirstPiece(key: string, value: string, rest: string)
    requires '=' !in key && '&' !in key && '&' in value
    ensures var body := key + "=" + value + rest;
      '&' in body && SplitPair(body[..IndexOf(body, '&')]) == Param(key, value[..IndexOf(value, '&')])
  {
    AmpersandIndex(key, value, rest);
    var body := key + "=" + value + rest;
    var k := IndexOf(value, '&');
    var lead := key + "=";
    assert body == lead + (value + rest);
    PrefixOfFront(value, rest, k);
    PrefixAcross(lead, value + rest, k);
    var piece := body[..IndexOf(body, '&')];
    assert piece == lead + value[..k];
    SplitPairJoin(Param(key, value[..k]));
    assert SplitPair(lead + value[..k]) == Param(key, value[..k]);
  }

  lemma PrefixOfFront(a: string, b: string, k: nat)
    requires k <= |a|
    ensures (a + b)[..k] == a[..k]
  {
  }

  lemma PrefixAcross(a: string, b: string, k: nat)
    requires k <= |b|
    ensures (a + b)[..|a| + k] == a + b[..k]
  {
  }

  /** The first parameter read from a query with several pieces is the piece before the first `&`. */
  lemma ParseFirst(q: string)
    requires |q| > 0 && q[0] == '?' && '&' in q[1..]
    ensures |ParseQuery(q)| > 0 && ParseQuery(q)[0] == SplitPair(q[1..][..IndexOf(q[1..], '&')])
  {
    var parts := SplitOn(q[1..], '&');
    assert parts[0] == q[1..][..IndexOf(q[1..], '&')];
  }

  /**
   The feed's platform is not encoded: an `&` inside it ends the `platform`
   parameter early, so the server reads a shorter platform than was passed.
   */
  lemma ActivityFeedUnencoded(base: string, platform: Option<string>, limit: Option<int>)
    requires Truthy(platform) && '&' in platform.value
    ensures var url := ActivityFeed(base, platform, limit);
      var read := ParseQuery(url[|base| + |FeedPath|..]);
      |read| > 0 && read[0].key == "platform" && |read[0].value| < |platform.value|
  {
    FeedQueryShape(platform, limit);
    QueryAfterPath(base, FeedPath, FeedParams(platform, limit));
    CutAtAmpersand("platform", platform.value, ['&'] + ("limit" + "=" + IntToString(Default(limit, 20))));
  }

  /** `API_ENDPOINTS.eventsRecent(since)` */
  function EventsRecent(base: string, since: int): (url: string)
    ensures |url| >= |base| + |EventsPath| && url[..|base| + |EventsPath|] == base + EventsPath
  {
    WithBase(base, EventsPath + RenderQuery([Param("since", IntToString(since))]))
  }

  /** The events URL carries the one `since` parameter. */
  lemma EventsRecentReadsBack(base: string, since: int)
    ensures var url := EventsRecent(base, since);
      ParseQuery(url[|base| + |EventsPath|..]) == [Param("since", IntToString(since))]
  {
    NumberIsReadable("since", since);
    QueryRoundTrip([Param("since", IntToString(since))]);
    QueryAfterPath(base, EventsPath, [Param("since", IntToString(since))]);
  }
}

=== FILE: autopilot.dfy ===
/**
 The queue panel of the autopilot page: item identity, the optimistic
 "Prioritize" and "Remove" edits, row titles and numbers, the Prev/Next page
 buttons, and the modal's ordering by displayed time. The date parser is a
 parameter.
 */
module Autopilot {
  import opened Js
  import opened Seqs
  import opened Time

  /** `x._id || x.id || x.videoId`: empty strings fall through; the result may be undefined. */
  function ItemKey(x: QueueItem): Option<string> {
    Or(Or(x.dbId, x.id), x.videoId)
  }

  /** `prev.findIndex(x => key(x) === id)`: the first match, or −1. */
  function FindIndex(s: seq<QueueItem>, id: Option<string>): (r: int)
    ensures -1 <= r < |s|
    ensures r >= 0 ==> ItemKey(s[r]) == id && forall j :: 0 <= j < r ==> ItemKey(s[j]) != id
    ensures r == -1 ==> forall j :: 0 <= j < |s| ==> ItemKey(s[j]) != id
  {
    if |s| == 0 then -1
    else if ItemKey(s[0]) == id then 0
    else
      var r := FindIndex(s[1..], id);
      assert forall j :: 1 <= j < |s| ==> s[j] == s[1..][j - 1];
      if r == -1 then -1 else r + 1
  }

  /**
   Optimistic "Prioritize": the first item whose key is `id` moves to the
   front and the others keep their order. With no match, or the match already
   first, the list is returned unchanged.
   */
  function Prioritize(prev: seq<QueueItem>, id: Option<string>): (r: seq<QueueItem>)
    ensures |r| == |prev| && multiset(r) == multiset(prev)
    ensures FindIndex(prev, id) <= 0 ==> r == prev
    ensures FindIndex(prev, id) > 0 ==>
      var k := FindIndex(prev, id);
      r[0] == prev[k] && r[1..] == prev[..k] + prev[k + 1..]
    ensures FindIndex(prev, id) >= 0 ==> ItemKey(r[0]) == id
  {
    var k := FindIndex(prev, id);
    if k <= 0 then prev
    else
      assert prev == prev[..k] + [prev[k]] + prev[k + 1..];
      [prev[k]] + (prev[..k] + prev[k + 1..])
  }

  /** Prioritizing the same item twice changes nothing the second time. */
  lemma PrioritizeIdempotent(prev: seq<QueueItem>, id: Option<string>)
    ensures Prioritize(Prioritize(prev, id), id) == Prioritize(prev, id)
  {
    var r := Prioritize(prev, id);
    if FindIndex(prev, id) >= 0 {
      assert FindIndex(r, id) == 0;
    }
  }

  /** Optimistic "Remove": drops exactly the items whose key is `id`; the survivors keep their order. */
  function Remove(prev: seq<QueueItem>, id: Option<string>): (r: seq<QueueItem>)
    ensures forall i :: 0 <= i < |r| ==> ItemKey(r[i]) != id
    ensures forall x :: multiset(r)[x] == if ItemKey(x) != id then multiset(prev)[x] else 0
    ensures IsSubseq(r, prev)
  {
    var p := (x: QueueItem) => ItemKey(x) != id;
    FilterIsSubseq(prev, p);
    forall x ensures multiset(Filter(prev, p))[x] == if ItemKey(x) != id then multiset(prev)[x] else 0 {
      FilterCounts(prev, p, x);
    }
    Filter(prev, p)
  }

  /** Removing after prioritizing gives what removing alone gives: the moved item is one of those removed. */
  lemma RemoveAfterPrioritize(prev: seq<QueueItem>, id: Option<string>)
    ensures Remove(Prioritize(prev, id), id) == Remove(prev, id)
  {
    var k := FindIndex(prev, id);
    if k > 0 {
      var p := (x: QueueItem) => ItemKey(x) != id;
      var a, x, b := prev[..k], prev[k], prev[k + 1..];
      assert prev == a + [x] + b;
      assert Prioritize(prev, id) == [x] + (a + b);
      FilterSkipsRejected(a, x, b, p);
    }
  }

  /** A rejected element contributes nothing to a filter, wherever it sits. */
  lemma FilterSkipsRejected<T>(a: seq<T>, x: T, b: seq<T>, p: T -> bool)
    requires !p(x)
    ensures Filter(a + [x] + b, p) == Filter(a + b, p)
    ensures Filter([x] + (a + b), p) == Filter(a + b, p)
  {
    FilterConcat(a + [x], b, p);
    FilterConcat(a, [x], p);
    FilterConcat(a, b, p);
    FilterConcat([x], a + b, p);
    assert Filter([x], p) == [] by {
      assert [x][..0] == [];
    }
  }

  lemma {:induction false} FilterConcat<T>(a: seq<T>, b: seq<T>, p: T -> bool)
    ensures Filter(a + b, p) == Filter(a, p) + Filter(b, p)
    decreases |b|
  {
    if |b| > 0 {
      var b' := b[..|b| - 1];
      assert (a + b)[..|a + b| - 1] == a + b';
      FilterConcat(a, b', p);
    } else {
      assert a + b == a;
    }
  }

  /** An item with no `_id`, `id` or `videoId` shares the undefined key with every other such item, so removing one removes them all. */
  lemma RemoveKeylessDropsAllKeyless(prev: seq<QueueItem>, sel: QueueItem)
    requires ItemKey(sel) == None
    ensures forall i :: 0 <= i < |Remove(prev, ItemKey(sel))| ==> ItemKey(Remove(prev, ItemKey(sel))[i]).Some?
  {
  }

  /** Row highlight: the selected item and the row have equal keys. */
  predicate IsSelected(sel: Option<QueueItem>, it: QueueItem) {
    sel.Some? && ItemKey(sel.value) == ItemKey(it)
  }

  /** After removing the selected item's key, no remaining row shares it. */
  lemma RemoveClearsHighlight(prev: seq<QueueItem>, sel: QueueItem)
    ensures forall i :: 0 <= i < |Remove(prev, ItemKey(sel))| ==> !IsSelected(Some(sel), Remove(prev, ItemKey(sel))[i])
  {
  }

  // ---------------------------------------------------------------------------
  // Titles, row numbers and pages

  /**
   The row title `title || caption || videoId || _id || id || "Item " + (idx + 1)`:
   never empty; the first non-blank field in that order, and the numbered
   fallback when every field is blank.
   */
  function Title(it: QueueItem, idx: nat): (r: string)
    ensures |r| > 0
    ensures Truthy(it.title) ==> r == it.title.value
    ensures !Truthy(it.title) && Truthy(it.caption) ==> r == it.caption.value
    ensures !Truthy(it.title) && !Truthy(it.caption) && Truthy(it.videoId) ==> r == it.videoId.value
    ensures !Truthy(it.title) && !Truthy(it.caption) && !Truthy(it.videoId) && Truthy(it.dbId) ==> r == it.dbId.value
    ensures !Truthy(it.title) && !Truthy(it.caption) && !Truthy(it.videoId) && !Truthy(it.dbId) && Truthy(it.id)
            ==> r == it.id.value
    ensures !Truthy(it.title) && !Truthy(it.caption) && !Truthy(it.videoId) && !Truthy(it.dbId) && !Truthy(it.id)
            ==> r == "Item " + NatToString(idx + 1)
    ensures r == "Item " + NatToString(idx + 1)
            || Some(r) in [it.title, it.caption, it.videoId, it.dbId, it.id]
  {
    var fields := Or(Or(Or(Or(it.title, it.caption), it.videoId), it.dbId), it.id);
    if Truthy(fields) then fields.value else "Item " + IntToString(idx + 1)
  }

  /** The preview card lists the first twelve items, each under its row title, numbered from 1. */
  function PreviewTitles(items: seq<QueueItem>): (r: seq<string>)
    ensures |r| == if |items| < 12 then |items| else 12
    ensures forall i :: 0 <= i < |r| ==> r[i] == Title(items[i], i) && |r[i]| > 0
  {
    var n := if |items| < 12 then |items| else 12;
    seq(n, i requires 0 <= i < n => Title(items[i], i))
  }

  const PageSize: nat := 50

  /**
   The number shown before row `idx` of page `page`, counting on from the 50
   rows a page is assumed to hold. The page itself does not cap its rows:
   rows of page p start after (p−1)·50 and, for the first 50 rows, stay
   within p·50.
   */
  function RowNumber(idx: nat, page: int): (n: int)
    ensures (page - 1) * PageSize < n
    ensures idx < PageSize ==> n <= page * PageSize
  {
    idx + 1 + (page - 1) * PageSize
  }

  /** Among the first 50 rows of each page, different rows never share a number. */
  lemma RowNumbersDistinct(i1: nat, p1: int, i2: nat, p2: int)
    requires RowNumber(i1, p1) == RowNumber(i2, p2)
    ensures i1 < PageSize && i2 < PageSize ==> i1 == i2 && p1 == p2
  {
  }

  /** Consecutive rows of a page carry consecutive numbers. */
  lemma RowNumbersConsecutive(idx: nat, page: int)
    ensures RowNumber(idx + 1, page) == RowNumber(idx, page) + 1
  {
  }

  /** A 51st row on one page carries the number of the first row of the next page. */
  lemma RowNumbersCollidePastFifty(page: int)
    ensures RowNumber(PageSize, page) == RowNumber(0, page + 1)
  {
  }

  /** `json?.pages || 1` */
  function PagesOf(pages: Option<int>): (r: int)
    ensures pages.Some? && pages.value != 0 ==> r == pages.value
    ensures pages.None? || pages.value == 0 ==> r == 1
  {
    if pages.Some? && pages.value != 0 then pages.value else 1
  }

  /** "← Prev": one page back, never below page 1. */
  function PrevPage(p: int): (r: int)
    ensures r >= 1
    ensures p > 1 ==> r == p - 1
    ensures p <= 1 ==> r == 1
  {
    if p - 1 >= 1 then p - 1 else 1
  }

  /** "Next →": one page on, never past the last page. */
  function NextPage(p: int, pages: int): (r: int)
    ensures r <= pages
    ensures p < pages ==> r == p + 1
    ensures p >= pages ==> r == pages
  {
    if p + 1 <= pages then p + 1 else pages
  }

  /** From a page within [1, pages], both buttons keep the page within [1, pages]. */
  lemma PagingStaysInRange(p: int, pages: int)
    requires 1 <= p <= pages
    ensures 1 <= PrevPage(p) <= pages
    ensures 1 <= NextPage(p, pages) <= pages
  {
  }

  // ---------------------------------------------------------------------------
  // Ordering of the modal list

  /** Sort key: the displayed time in milliseconds, or 0 when there is none. */
  function TimeKey(it: QueueItem, toMs: string -> int): int {
    var iso := DisplayIso(it);
    if Truthy(iso) then toMs(iso.value) else 0
  }

  /** The comparator `at - bt <= 0` on displayed times. */
  function DisplayLe(toMs: string -> int): (QueueItem, QueueItem) -> bool {
    (a: QueueItem, b: QueueItem) => TimeKey(a, toMs) <= TimeKey(b, toMs)
  }

  /**
   The modal list: a permutation of the queue, ascending by displayed time,
   items of equal time in queue order.
   */
  function SortByDisplayTime(items: seq<QueueItem>, toMs: string -> int): (r: seq<QueueItem>)
    ensures multiset(r) == multiset(items)
    ensures forall i, j :: 0 <= i < j < |r| ==> TimeKey(r[i], toMs) <= TimeKey(r[j], toMs)
    ensures Stable(r, items, DisplayLe(toMs))
  {
    assert TotalPreorder(DisplayLe(toMs));
    SortByStable(items, DisplayLe(toMs));
    SortBy(items, DisplayLe(toMs))
  }

  /**
   Sorting the prioritized queue shows the same displayed time in every row
   as sorting the queue itself: the move to the front does not survive the
   modal's sort.
   */
  lemma SortOverridesPrioritize(items: seq<QueueItem>, id: Option<string>, toMs: string -> int)
    ensures var a := SortByDisplayTime(Prioritize(items, id), toMs);
      var b := SortByDisplayTime(items, toMs);
      |a| == |b| && forall i :: 0 <= i < |a| ==> TimeKey(a[i], toMs) == TimeKey(b[i], toMs)
  {
    var a := SortByDisplayTime(Prioritize(items, id), toMs);
    var b := SortByDisplayTime(items, toMs);
    var key := (it: QueueItem) => TimeKey(it, toMs);
    assert KeySorted(a, key) && KeySorted(b, key);
    SortedKeysAgree(a, b, key);
  }

  /** Items without a displayed time sort as if scheduled at the epoch. */
  lemma UntimedSortsAtEpoch(it: QueueItem, toMs: string -> int)
    requires !Truthy(it.scheduledAt) && !HasOriginal(it)
    ensures TimeKey(it, toMs) == 0
  {
    DisplayIsoTruthy(it);
  }
}

=== FILE: chart.dfy ===
/**
 The arithmetic of the dual-series activity chart (`ChartLines`): choosing the
 series, the shared vertical scale, trailing moving-average smoothing, the
 scrolling resampler and its linear interpolation, the value-to-pixel mapping,
 sparkle dots, date ticks, the hover cursor with its tooltip, and the
 animation clock. Canvas drawing itself is not modelled: each function below
 yields the numbers a drawing call would receive.
 */
module Chart {
  import opened Js
  import opened Seqs

  // ---------------------------------------------------------------------------
  // Series selection and shared scale

  /** The series props: the legacy single `points` series and the two platform series. */
  datatype SeriesProps = SeriesProps(points: seq<real>, igSeries: Option<seq<real>>, ytSeries: Option<seq<real>>)

  datatype Mode = Dual | Single

  /** Dual mode as soon as either platform series is passed, even an empty one. */
  function ModeOf(p: SeriesProps): Mode {
    if p.igSeries.Some? || p.ytSeries.Some? then Dual else Single
  }

  function SeqOrEmpty(s: Option<seq<real>>): seq<real> {
    if s.Some? then s.value else []
  }

  /** The pair (series A, series B) that the chart draws. */
  function SelectSeries(p: SeriesProps): (r: (seq<real>, seq<real>))
    ensures ModeOf(p) == Single ==> r.0 == p.points && r.1 == []
    ensures ModeOf(p) == Dual ==> r.0 == SeqOrEmpty(p.igSeries) && r.1 == SeqOrEmpty(p.ytSeries)
  {
    match ModeOf(p)
    case Dual => (SeqOrEmpty(p.igSeries), SeqOrEmpty(p.ytSeries))
    case Single => (p.points, [])
  }

  /** Once a platform series is supplied, the legacy `points` no longer influence the chart. */
  lemma PointsIgnoredInDualMode(p: SeriesProps, other: seq<real>)
    requires ModeOf(p) == Dual
    ensures SelectSeries(p.(points := other)) == SelectSeries(p)
  {
  }

  /** The samples that take part in scaling: those of the series that are shown. */
  function Visible(a: seq<real>, b: seq<real>, showA: bool, showB: bool): seq<real> {
    (if showA then a else []) + (if showB then b else [])
  }

  /**
   `maxVal`: the shared vertical scale. It is at least 1, bounds every sample
   of a shown series, and is either 1 or a sample of a shown series, so a
   hidden series contributes nothing.
   */
  function MaxVal(a: seq<real>, b: seq<real>, showA: bool, showB: bool): (r: real)
    ensures r >= 1.0
    ensures showA ==> forall i :: 0 <= i < |a| ==> a[i] <= r
    ensures showB ==> forall i :: 0 <= i < |b| ==> b[i] <= r
    ensures r == 1.0 || (showA && r in a) || (showB && r in b)
  {
    var all := Visible(a, b, showA, showB);
    var r := MaxFrom(1.0, all);
    assert showA ==> forall i :: 0 <= i < |a| ==> a[i] == all[i];
    assert showB ==> forall i :: 0 <= i < |b| ==> b[i] == all[|all| - |b| + i];
    r
  }

  /** With nothing visible the scale is exactly 1. */
  lemma MaxValNothingVisible(a: seq<real>, b: seq<real>, showA: bool, showB: bool)
    requires (!showA || |a| == 0) && (!showB || |b| == 0)
    ensures MaxVal(a, b, showA, showB) == 1.0
  {
  }

  // ---------------------------------------------------------------------------
  // Trailing moving average

  const SmoothWindow: int := 7

  /** First index of the trailing window of width `w` that ends at `i`. */
  function WindowStart(i: nat, w: nat): nat {
    if i + 1 >= w then i + 1 - w else 0
  }

  /** Mean of the (possibly partial) trailing window ending at `i`. */
  function WindowMean(data: seq<real>, i: nat, w: nat): real
    requires i < |data| && w >= 1
  {
    Sum(data[WindowStart(i, w)..i + 1]) / (i + 1 - WindowStart(i, w)) as real
  }

  /** Reference meaning of `smooth`: every sample replaced by its trailing-window mean. */
  function Smoothed(data: seq<real>, smoothing: bool, w: int): seq<real> {
    if !smoothing || w <= 1 then data
    else seq(|data|, i requires 0 <= i < |data| => WindowMean(data, i, w))
  }

  /**
   `smooth`: the running-accumulator moving average. With smoothing off or a
   window of at most one sample it hands back its input untouched; otherwise
   sample `i` becomes the sum of the last `min(i + 1, w)` samples divided by
   that count.
   */
  method Smooth(data: seq<real>, smoothing: bool, w: int) returns (out: seq<real>)
    ensures |out| == |data|
    ensures !smoothing || w <= 1 ==> out == data
    ensures smoothing && w > 1 ==>
      forall i :: 0 <= i < |data| ==>
        out[i] == Sum(data[WindowStart(i, w)..i + 1]) / (if i < w then i + 1 else w) as real
    ensures out == Smoothed(data, smoothing, w)
  {
    if !smoothing || w <= 1 {
      return data;
    }
    out := SmoothWindows(data, w);
    SmoothedFormula(data, w);
  }

  /** The accumulator loop of `smooth` for a real window: each output is its trailing-window mean. */
  method SmoothWindows(data: seq<real>, w: int) returns (out: seq<real>)
    requires w > 1
    ensures out == Smoothed(data, true, w)
  {
    out := [];
    var acc := 0.0;
    var i := 0;
    while i < |data|
      invariant 0 <= i <= |data|
      invariant |out| == i
      invariant forall k :: 0 <= k < i ==> out[k] == WindowMean(data, k, w)
      invariant acc == if i == 0 then 0.0 else Sum(data[WindowStart(i - 1, w)..i])
    {
      ghost var prev := acc;
      acc := acc + data[i];
      if i >= w {
        acc := acc - data[i - w];
      }
      var denom := if i < w then i + 1 else w;
      SmoothStep(data, i, w, prev, acc);
      out := out + [acc / denom as real];
      i := i + 1;
    }
  }

  /** A smoothed sample divides its window's sum by the window's width: `i + 1` until the window fills, `w` after. */
  lemma SmoothedFormula(data: seq<real>, w: int)
    requires w > 1
    ensures forall i :: 0 <= i < |data| ==>
      Smoothed(data, true, w)[i] == Sum(data[WindowStart(i, w)..i + 1]) / (if i < w then i + 1 else w) as real
  {
    forall i | 0 <= i < |data|
      ensures Smoothed(data, true, w)[i] == Sum(data[WindowStart(i, w)..i + 1]) / (if i < w then i + 1 else w) as real
    {
      assert i + 1 - WindowStart(i, w) == if i < w then i + 1 else w;
    }
  }

  /** One turn of the accumulator loop: the running sum moves to the next window and yields its mean. */
  lemma SmoothStep(data: seq<real>, i: nat, w: nat, prev: real, acc: real)
    requires i < |data| && w > 1
    requires prev == if i == 0 then 0.0 else Sum(data[WindowStart(i - 1, w)..i])
    requires acc == prev + data[i] - (if i >= w then data[i - w] else 0.0)
    ensures acc == Sum(data[WindowStart(i, w)..i + 1])
    ensures acc / (if i < w then i + 1 else w) as real == WindowMean(data, i, w)
  {
    AccumulateStep(data, i, w);
  }

  /** One step of the accumulator: add the newest sample, drop the one leaving the window. */
  lemma AccumulateStep(data: seq<real>, i: nat, w: nat)
    requires i < |data| && w > 1
    ensures var prev := if i == 0 then 0.0 else Sum(data[WindowStart(i - 1, w)..i]);
            Sum(data[WindowStart(i, w)..i + 1])
              == prev + data[i] - (if i >= w then data[i - w] else 0.0)
    ensures i + 1 - WindowStart(i, w) == if i < w then i + 1 else w
  {
    var s := if i == 0 then 0 else WindowStart(i - 1, w);
    assert data[s..i + 1][..i - s] == data[s..i];
    if i == 0 {
      assert data[s..i] == [];
    }
    if i >= w {
      assert s == i - w;
      SumFront(data[s..i + 1]);
      assert data[s..i + 1][1..] == data[s + 1..i + 1];
    }
  }

  /** A mean of values within `[lo, hi]` stays within `[lo, hi]`. */
  lemma MeanBounds(total: real, d: real, lo: real, hi: real)
    requires d > 0.0 && d * lo <= total <= d * hi
    ensures lo <= total / d <= hi
  {
    assert total == d * (total / d);
  }

  /** Each smoothed sample lies between the least and greatest sample of its window. */
  lemma {:induction false} SmoothedWithinWindow(data: seq<real>, w: int, i: nat, lo: real, hi: real)
    requires w > 1 && i < |data|
    requires forall k :: WindowStart(i, w) <= k <= i ==> lo <= data[k] <= hi
    ensures lo <= Smoothed(data, true, w)[i] <= hi
  {
    var win := data[WindowStart(i, w)..i + 1];
    SumBounds(win, lo, hi);
    MeanBounds(Sum(win), |win| as real, lo, hi);
  }

  /** Samples within `[0, top]` stay within `[0, top]` after smoothing, whatever the flags. */
  lemma SmoothedStaysInRange(data: seq<real>, smoothing: bool, w: int, top: real)
    requires forall k :: 0 <= k < |data| ==> 0.0 <= data[k] <= top
    ensures |Smoothed(data, smoothing, w)| == |data|
    ensures forall k :: 0 <= k < |data| ==> 0.0 <= Smoothed(data, smoothing, w)[k] <= top
  {
    if smoothing && w > 1 {
      forall k | 0 <= k < |data|
        ensures 0.0 <= Smoothed(data, smoothing, w)[k] <= top
      {
        SmoothedWithinWindow(data, w, k, 0.0, top);
      }
    }
  }

  /** The warm-up region divides by the number of samples seen so far. */
  lemma SmoothWarmUpExample()
    ensures var s := Smoothed([10.0, 20.0, 30.0, 40.0], true, SmoothWindow);
            s[0] == 10.0 && s[1] == 15.0 && s[3] == 25.0
  {
    var d := [10.0, 20.0, 30.0, 40.0];
    assert d[0..1] == [10.0];
    assert d[0..2] == [10.0, 20.0];
    assert d[0..4] == [10.0, 20.0, 30.0, 40.0];
    assert d[0..4][..3] == [10.0, 20.0, 30.0];
    assert d[0..4][..3][..2] == [10.0, 20.0];
    assert d[0..2][..1] == [10.0];
    assert [10.0][..0] == [];
  }

  // ---------------------------------------------------------------------------
  // Interpolation and the vertical mapping

  /** `data[k] || 0`: a sample, or 0 outside the series. */
  function SampleOr0(data: seq<real>, k: int): real {
    if 0 <= k < |data| then data[k] else 0.0
  }

  /** Index of the right-hand neighbour used for fractional index floor `k`: `k + 1`, or `k` itself at the end. */
  function NextIndex(n: nat, k: nat): nat {
    if k + 1 < n then k + 1 else k
  }

  /**
   The interpolation shared by the scrolling path, the sparkles and the hover
   dot: `v0 + (v1 - v0) * frac`, where `v1` falls back to `v0` past the end.
   Within the series the value lies between the two neighbouring samples, and
   a whole index reads its sample exactly.
   */
  function Interpolate(data: seq<real>, u: real): (v: real)
    requires u >= 0.0
    ensures u.Floor < |data| ==>
      Min(data[u.Floor], data[NextIndex(|data|, u.Floor)]) <= v
        <= Max(data[u.Floor], data[NextIndex(|data|, u.Floor)])
    ensures u.Floor < |data| && u == u.Floor as real ==> v == data[u.Floor]
  {
    var i0 := u.Floor;
    var v0 := SampleOr0(data, i0);
    var v1 := if i0 + 1 < |data| then data[i0 + 1] else v0;
    var frac := u - i0 as real;
    Between(v0, v1, frac);
    v0 + (v1 - v0) * frac
  }

  lemma Between(v0: real, v1: real, f: real)
    requires 0.0 <= f <= 1.0
    ensures Min(v0, v1) <= v0 + (v1 - v0) * f <= Max(v0, v1)
  {
    var d := v1 - v0;
    var g := d * f;
    if d >= 0.0 {
      ShrinkBy(d, f);
      assert 0.0 <= g <= d;
    } else {
      ShrinkBy(-d, f);
      assert (-d) * f == -g;
      assert 0.0 <= -g <= -d;
      assert d <= g <= 0.0;
    }
  }

  lemma ShrinkBy(a: real, f: real)
    requires a >= 0.0 && 0.0 <= f <= 1.0
    ensures 0.0 <= a * f <= a
  {
  }

  /** At or beyond the last index the last sample is held, never extrapolated. */
  lemma HoldsLastSample(data: seq<real>, u: real)
    requires |data| > 0 && (|data| - 1) as real <= u < |data| as real
    ensures Interpolate(data, u) == data[|data| - 1]
  {
  }

  lemma InterpolateExamples()
    ensures Interpolate([10.0, 20.0, 30.0], 0.5) == 15.0
    ensures Interpolate([10.0, 20.0, 30.0], 2.0) == 30.0
  {
  }

  /**
   The canvas y of value `v`: `h − (v / maxVal)·0.9h − 0.05h`. Values between 0
   and the scale land in the band [0.05h, 0.95h]; larger values sit higher.
   */
  function PlotY(v: real, maxVal: real, h: real): (y: real)
    requires maxVal >= 1.0
    ensures 0.0 <= v <= maxVal && h >= 0.0 ==> 0.05 * h <= y <= 0.95 * h
    ensures v == 0.0 ==> y == 0.95 * h
    ensures v == maxVal ==> y == 0.05 * h
  {
    var y := h - (v / maxVal) * (h * 0.9) - h * 0.05;
    if 0.0 <= v <= maxVal && h >= 0.0 then
      RatioBounds(v, maxVal);
      ScaleUnit(v / maxVal, h * 0.9);
      y
    else y
  }

  lemma RatioBounds(v: real, m: real)
    requires m > 0.0 && 0.0 <= v <= m
    ensures 0.0 <= v / m <= 1.0
  {
    assert v == m * (v / m);
  }

  lemma RatioAtLeastOne(v: real, m: real)
    requires m > 0.0 && v >= m
    ensures v / m >= 1.0
  {
    assert v == m * (v / m);
  }

  lemma ScaleUnit(f: real, x: real)
    requires 0.0 <= f <= 1.0 && x >= 0.0
    ensures 0.0 <= f * x <= x
  {
  }

  /** A larger value is drawn no lower on the canvas. */
  lemma PlotYAntitone(v1: real, v2: real, maxVal: real, h: real)
    requires maxVal >= 1.0 && h >= 0.0 && v1 <= v2
    ensures PlotY(v2, maxVal, h) <= PlotY(v1, maxVal, h)
  {
    assert v1 / maxVal <= v2 / maxVal by {
      assert v2 / maxVal - v1 / maxVal == (v2 - v1) / maxVal;
    }
    assert (v2 / maxVal - v1 / maxVal) * (h * 0.9) >= 0.0;
  }

  // ---------------------------------------------------------------------------
  // The scrolling path

  /** `(t * 0.5) % 1`: the horizontal scroll phase of clock time `t`. */
  function ScrollPhase(t: real): (r: real)
    requires t >= 0.0
    ensures 0.0 <= r < 1.0
  {
    Mod(t * 0.5, 1.0)
  }

  /**
   Fractional data index of pixel column `i`: the column's position spread
   over `n − 1` intervals, shifted by the phase and wrapped modulo `n − 1`.
   It never reaches `n − 1`, so both neighbours of its floor are samples.
   */
  function ScrollIndex(i: nat, width: int, n: int, scroll: real): (idx: real)
    requires n >= 2 && 0.0 <= scroll < 1.0
    ensures 0.0 <= idx < (n - 1) as real
    ensures 0 <= idx.Floor && idx.Floor + 1 < n
  {
    var span := (n - 1) as real;
    var u := (i as real / Max(1.0, (width - 1) as real)) * span;
    NonNegProduct(i as real / Max(1.0, (width - 1) as real), span);
    NonNegProduct(scroll, span);
    Mod(u + scroll * span, span)
  }

  lemma NonNegProduct(a: real, b: real)
    requires a >= 0.0 && b >= 0.0
    ensures a * b >= 0.0
  {
  }

  /** Without scroll the first column shows the first sample, and the last column wraps back to it. */
  lemma ScrollEnds(width: int, n: int)
    requires n >= 2 && width >= 2
    ensures ScrollIndex(0, width, n, 0.0) == 0.0
    ensures ScrollIndex(width - 1, width, n, 0.0) == 0.0
  {
    var span := (n - 1) as real;
    var w1 := (width - 1) as real;
    assert ((width - 1) as real / Max(1.0, w1)) == 1.0;
    assert Mod(span, span) == 0.0 by {
      assert span / span == 1.0;
      assert (span / span).Floor == 1;
    }
  }

  /** Without scroll, the columns before the last map linearly onto the data. */
  lemma ScrollLinearWithoutPhase(i: nat, width: int, n: int)
    requires n >= 2 && width >= 2 && i < width - 1
    ensures ScrollIndex(i, width, n, 0.0) == (i as real / (width - 1) as real) * (n - 1) as real
  {
    var f := i as real / (width - 1) as real;
    assert f < 1.0 by {
      RatioBounds(i as real, (width - 1) as real);
      assert i as real == (width - 1) as real * f;
    }
    assert f * (n - 1) as real < (n - 1) as real;
  }

  /** Value drawn at pixel column `i`; it lies between the two samples around the column's index. */
  function PathValue(data: seq<real>, i: nat, width: int, scroll: real): (v: real)
    requires |data| >= 2 && 0.0 <= scroll < 1.0
    ensures var k := ScrollIndex(i, width, |data|, scroll).Floor;
            Min(data[k], data[k + 1]) <= v <= Max(data[k], data[k + 1])
  {
    Interpolate(data, ScrollIndex(i, width, |data|, scroll))
  }

  /** The y coordinate of every column of a series' scrolling polyline. */
  function PathYs(data: seq<real>, width: nat, scroll: real, maxVal: real, h: real): (ys: seq<real>)
    requires |data| >= 2 && 0.0 <= scroll < 1.0 && maxVal >= 1.0
    ensures |ys| == width
    ensures h >= 0.0 && (forall k :: 0 <= k < |data| ==> 0.0 <= data[k] <= maxVal) ==>
      forall i :: 0 <= i < width ==> 0.05 * h <= ys[i] <= 0.95 * h
  {
    seq(width, i requires 0 <= i < width => PlotY(PathValue(data, i, width, scroll), maxVal, h))
  }

  // ---------------------------------------------------------------------------
  // Sparkle dots

  const SparkleCount: nat := 8

  /** `(s / 8 + (t % 1)) % 1`: where sparkle `s` sits along the series. */
  function SparklePhase(s: nat, t: real): (p: real)
    requires t >= 0.0
    ensures 0.0 <= p < 1.0
  {
    var base := s as real / SparkleCount as real;
    Mod(base + Mod(t, 1.0), 1.0)
  }

  /** Canvas position of sparkle `s`: its column lies on the canvas, its value between two samples. */
  function SparkleDot(data: seq<real>, s: nat, t: real, width: nat, maxVal: real, h: real): (dot: (int, real))
    requires |data| >= 1 && t >= 0.0 && maxVal >= 1.0
    ensures width > 0 ==> 0 <= dot.0 < width
    ensures h >= 0.0 && (forall k :: 0 <= k < |data| ==> 0.0 <= data[k] <= maxVal) ==>
      0.05 * h <= dot.1 <= 0.95 * h
  {
    var p := SparklePhase(s, t);
    var x := (p * width as real).Floor;
    ColumnOnCanvas(p, width);
    var v := Interpolate(data, HoverPosition(|data|, p));
    (x, PlotY(v, maxVal, h))
  }

  /** A phase below one lands on a column of the canvas. */
  lemma ColumnOnCanvas(p: real, width: nat)
    requires 0.0 <= p < 1.0
    ensures width > 0 ==> 0 <= (p * width as real).Floor < width
  {
    if width > 0 {
      ScaleUnit(p, width as real);
      assert p * width as real < width as real;
    }
  }

  // ---------------------------------------------------------------------------
  // Grid, date ticks and labels

  const GridRows: nat := 5

  /** Heights of the horizontal grid lines: 6 lines, evenly spaced, from the top edge to the bottom edge. */
  function GridLines(h: real): (ys: seq<real>)
    ensures |ys| == GridRows + 1
    ensures ys[0] == 0.0 && ys[GridRows] == h
    ensures forall r :: 0 <= r < GridRows ==> ys[r + 1] - ys[r] == h / GridRows as real
  {
    seq(GridRows + 1, r requires 0 <= r <= GridRows => (r as real / GridRows as real) * h)
  }

  const TickStep: nat := 7

  /** Indices that receive a date tick: every seventh index, starting at 0. */
  function TickIndices(n: nat): (ix: seq<nat>)
    ensures forall k :: 0 <= k < |ix| ==> ix[k] < n && ix[k] % TickStep == 0
    ensures forall i: nat :: i < n && i % TickStep == 0 ==> i in ix
    ensures forall j, k :: 0 <= j < k < |ix| ==> ix[j] < ix[k]
  {
    var ix := seq((n + TickStep - 1) / TickStep, k requires 0 <= k => TickStep * k);
    assert forall i: nat :: i < n && i % TickStep == 0 ==> i in ix by {
      forall i: nat | i < n && i % TickStep == 0
        ensures i in ix
      {
        var k := i / TickStep;
        assert k < |ix|;
        assert ix[k] == i;
      }
    }
    ix
  }

  /** Column of the tick for date index `i`; it lies on the canvas. */
  function TickX(i: nat, n: nat, width: nat): (x: int)
    requires i < n
    ensures 0 <= x <= width
  {
    var f := i as real / Max(1.0, (n - 1) as real);
    RatioBounds(i as real, Max(1.0, (n - 1) as real));
    ScaleUnit(f, width as real);
    (f * width as real).Floor
  }

  /** `(d || '').slice(5)`: an ISO date loses its year, leaving `MM-DD`. */
  function TickLabel(d: string): string {
    Slice(d, 5, |d|)
  }

  lemma TickLabelExample()
    ensures TickLabel("2024-01-15") == "01-15"
  {
  }

  // ---------------------------------------------------------------------------
  // Hover, tooltip and click

  /** Normalised pointer position: `(clientX − left) / max(1, width)` clamped into [0, 1]. */
  function HoverX(clientX: real, left: real, rectWidth: real): (x: real)
    ensures 0.0 <= x <= 1.0
    ensures rectWidth >= 1.0 && left <= clientX <= left + rectWidth ==> x == (clientX - left) / rectWidth
    ensures clientX <= left ==> x == 0.0
    ensures clientX >= left + Max(1.0, rectWidth) ==> x == 1.0
  {
    var d := Max(1.0, rectWidth);
    if clientX >= left + d then
      RatioAtLeastOne(clientX - left, d);
      Clamp((clientX - left) / d, 0.0, 1.0)
    else if rectWidth >= 1.0 && left <= clientX then
      RatioBounds(clientX - left, rectWidth);
      Clamp((clientX - left) / d, 0.0, 1.0)
    else Clamp((clientX - left) / d, 0.0, 1.0)
  }

  datatype PointInfo = PointInfo(y: real, val: real)

  /**
   The value under the cursor, read at the data's own position (no scroll
   phase): between the two samples around `hoverX · (n − 1)`, the first sample
   at the left edge and the last at the right edge.
   */
  function HoverValue(data: seq<real>, hoverX: real): (v: real)
    requires |data| > 0 && 0.0 <= hoverX <= 1.0
    ensures hoverX == 0.0 ==> v == data[0]
    ensures hoverX == 1.0 ==> v == data[|data| - 1]
  {
    Interpolate(data, HoverPosition(|data|, hoverX))
  }

  /** `hoverX · (n − 1)`: a fractional index inside the series, at its two ends for the two edges. */
  function HoverPosition(n: nat, hoverX: real): (u: real)
    requires n > 0 && 0.0 <= hoverX <= 1.0
    ensures 0.0 <= u <= (n - 1) as real && u.Floor < n
    ensures hoverX == 0.0 ==> u == 0.0
    ensures hoverX == 1.0 ==> u == (n - 1) as real && u.Floor == n - 1
  {
    var span := (n - 1) as real;
    ScaleUnit(hoverX, span);
    hoverX * span
  }

  /** The value under the cursor lies between the two samples around `hoverX · (n − 1)`. */
  lemma HoverValueBetween(data: seq<real>, hoverX: real)
    requires |data| > 0 && 0.0 <= hoverX <= 1.0
    ensures var k := (hoverX * (|data| - 1) as real).Floor;
      0 <= k < |data|
      && Min(data[k], data[NextIndex(|data|, k)]) <= HoverValue(data, hoverX)
      && HoverValue(data, hoverX) <= Max(data[k], data[NextIndex(|data|, k)])
  {
    assert HoverPosition(|data|, hoverX) == hoverX * (|data| - 1) as real;
  }

  /**
   `drawPointInfo`: the dot height and value under the cursor. An empty series
   reports (0, 0); otherwise the dot lies in the plotting band.
   */
  function HoverPoint(data: seq<real>, hoverX: real, maxVal: real, h: real): (info: PointInfo)
    requires 0.0 <= hoverX <= 1.0 && maxVal >= 1.0
    ensures |data| == 0 ==> info == PointInfo(0.0, 0.0)
    ensures |data| > 0 ==> info.val == HoverValue(data, hoverX)
    ensures h >= 0.0 && (forall k :: 0 <= k < |data| ==> 0.0 <= data[k] <= maxVal) && |data| > 0 ==>
      0.05 * h <= info.y <= 0.95 * h
  {
    if |data| == 0 then PointInfo(0.0, 0.0)
    else
      var v := HoverValue(data, hoverX);
      HoverValueBetween(data, hoverX);
      assert (forall k :: 0 <= k < |data| ==> 0.0 <= data[k] <= maxVal) ==> 0.0 <= v <= maxVal;
      PointInfo(PlotY(v, maxVal, h), v)
  }

  /**
   Index of the date under the cursor, `round(hoverX · (len − 1))`, or −1
   without dates: always a valid index, the nearest one to the cursor, and
   the first and last dates at the two edges.
   */
  function DateIndex(hoverX: real, len: nat): (idx: int)
    requires 0.0 <= hoverX <= 1.0
    ensures len == 0 ==> idx == -1
    ensures len > 0 ==> 0 <= idx < len
    ensures len > 0 ==> hoverX * (len - 1) as real - 0.5 < idx as real <= hoverX * (len - 1) as real + 0.5
    ensures len > 0 && hoverX == 0.0 ==> idx == 0
    ensures len > 0 && hoverX == 1.0 ==> idx == len - 1
  {
    if len == 0 then -1
    else
      var x := hoverX * (len - 1) as real;
      ScaleUnit(hoverX, (len - 1) as real);
      var r := Round(x);
      assert r as real <= (len - 1) as real + 0.5;
      r
  }

  /** `onClick`: the date handed to `onClickDate`, if the click fires at all. */
  function ClickedDate(hasCallback: bool, hoverX: Option<real>, dates: seq<string>): (r: Option<string>)
    requires hoverX.Some? ==> 0.0 <= hoverX.value <= 1.0
    ensures r.Some? <==> hasCallback && hoverX.Some? && |dates| > 0
    ensures r.Some? ==> r.value in dates
    ensures r.Some? && hoverX.value == 0.0 ==> r.value == dates[0]
    ensures r.Some? && hoverX.value == 1.0 ==> r.value == dates[|dates| - 1]
  {
    if hasCallback && hoverX.Some? && |dates| > 0 then
      Some(dates[DateIndex(hoverX.value, |dates|)])
    else None
  }

  /** One line of the hover tooltip; the counts are the rounded interpolated values. */
  datatype TooltipLine = DateLine(date: string) | IgLine(count: int) | YtLine(count: int)

  datatype Tooltip = Tooltip(lines: seq<TooltipLine>, x: real, boxH: int)

  const TooltipWidth: real := 120.0
  const TooltipMargin: real := 4.0
  const TooltipOffset: real := 8.0

  /** `bx = min(width − 120 − 4, max(4, xPx + 8))`. */
  function TooltipX(width: real, xPx: real): (bx: real)
    ensures bx <= width - TooltipWidth - TooltipMargin
    ensures width - TooltipWidth - TooltipMargin >= TooltipMargin ==> bx >= TooltipMargin
    ensures TooltipMargin <= xPx + TooltipOffset <= width - TooltipWidth - TooltipMargin ==> bx == xPx + TooltipOffset
  {
    Min(width - TooltipWidth - TooltipMargin, Max(TooltipMargin, xPx + TooltipOffset))
  }

  /**
   The tooltip for a cursor at `hoverX`: a date line when the date under the
   cursor is a non-empty string, then a line per shown series, in that order;
   the box is 16 pixels per line plus 10.
   */
  function MakeTooltip(dates: seq<string>, hoverX: real, width: real, showIG: bool, showYT: bool,
                       a: PointInfo, b: PointInfo): (tip: Tooltip)
    requires 0.0 <= hoverX <= 1.0
    ensures var idx := DateIndex(hoverX, |dates|);
            var hasDate := idx >= 0 && dates[idx] != "";
            |tip.lines| == (if hasDate then 1 else 0) + (if showIG then 1 else 0) + (if showYT then 1 else 0)
            && (hasDate ==> tip.lines[0] == DateLine(dates[idx]))
            && (showIG ==> IgLine(Round(a.val)) in tip.lines)
            && (showYT ==> YtLine(Round(b.val)) in tip.lines)
            && (showYT ==> tip.lines[|tip.lines| - 1] == YtLine(Round(b.val)))
            && (showIG ==> tip.lines[|tip.lines| - 1 - (if showYT then 1 else 0)] == IgLine(Round(a.val)))
            && (forall l :: l in tip.lines ==> l.DateLine? ==> hasDate)
    ensures tip.boxH == 16 * |tip.lines| + 10
    ensures 10 <= tip.boxH <= 58
    ensures tip.x <= width - TooltipWidth - TooltipMargin
  {
    var idx := DateIndex(hoverX, |dates|);
    var dateStr := if idx >= 0 then dates[idx] else "";
    var lines := (if dateStr != "" then [DateLine(dateStr)] else [])
      + (if showIG then [IgLine(Round(a.val))] else [])
      + (if showYT then [YtLine(Round(b.val))] else []);
    Tooltip(lines, TooltipX(width, hoverX * width), 16 * |lines| + 10)
  }

  // ---------------------------------------------------------------------------
  // Glow and animation clock

  /** Glow stroke alpha: `0.12 · speedFactor`, clamped to [0.06, 0.28]. */
  function GlowAlpha(speedFactor: real): (alpha: real)
    ensures 0.06 <= alpha <= 0.28
    ensures 0.5 <= speedFactor <= 0.28 / 0.12 ==> alpha == 0.12 * speedFactor
    ensures speedFactor <= 0.5 ==> alpha == 0.06
    ensures speedFactor >= 0.28 / 0.12 ==> alpha == 0.28
  {
    Clamp(0.12 * speedFactor, 0.06, 0.28)
  }

  /** A faster animation never glows dimmer. */
  lemma GlowAlphaMonotone(s1: real, s2: real)
    requires s1 <= s2
    ensures GlowAlpha(s1) <= GlowAlpha(s2)
  {
    assert 0.12 * s1 <= 0.12 * s2;
  }

  const BaseRate: real := 0.6

  /** Per-frame clock increment: `0.006 · clamp(0.6 · speedFactor, 0.2, 3)`, always positive. */
  function ClockStep(speedFactor: real): (dt: real)
    ensures 0.006 * 0.2 <= dt <= 0.006 * 3.0
    ensures 0.2 <= BaseRate * speedFactor <= 3.0 ==> dt == 0.006 * BaseRate * speedFactor
    ensures BaseRate * speedFactor <= 0.2 ==> dt == 0.006 * 0.2
    ensures BaseRate * speedFactor >= 3.0 ==> dt == 0.006 * 3.0
  {
    0.006 * Clamp(BaseRate * speedFactor, 0.2, 3.0)
  }

  /** Clock value after `frames` frames since the effect started at 0. */
  function ClockAfter(frames: nat, speedFactor: real): real {
    if frames == 0 then 0.0 else ClockAfter(frames - 1, speedFactor) + ClockStep(speedFactor)
  }

  /** The clock strictly increases from frame to frame, by at least 0.0012 each time. */
  lemma {:induction false} ClockIncreases(j: nat, k: nat, speedFactor: real)
    requires j <= k
    ensures ClockAfter(k, speedFactor) - ClockAfter(j, speedFactor) >= 0.0012 * (k - j) as real
    ensures j < k ==> ClockAfter(j, speedFactor) < ClockAfter(k, speedFactor)
    decreases k
  {
    if j < k {
      ClockIncreases(j, k - 1, speedFactor);
    }
  }

  // ---------------------------------------------------------------------------
  // The whole frame

  /**
   Every column of a shown series' polyline stays inside the band
   [0.05h, 0.95h] when the samples are non-negative: the scale bounds the raw
   samples, smoothing keeps them within that bound, and the mapping keeps
   values between 0 and the scale inside the band.
   */
  lemma FramePathInBand(p: SeriesProps, showIG: bool, showYT: bool, smoothing: bool,
                        width: nat, t: real, h: real)
    requires t >= 0.0 && h >= 0.0
    requires forall k :: 0 <= k < |SelectSeries(p).0| ==> SelectSeries(p).0[k] >= 0.0
    requires forall k :: 0 <= k < |SelectSeries(p).1| ==> SelectSeries(p).1[k] >= 0.0
    ensures var (a, b) := SelectSeries(p);
            var top := MaxVal(a, b, showIG, showYT);
            showIG && |a| >= 2 ==>
              var ys := PathYs(Smoothed(a, smoothing, SmoothWindow), width, ScrollPhase(t), top, h);
              forall i :: 0 <= i < width ==> 0.05 * h <= ys[i] <= 0.95 * h
    ensures var (a, b) := SelectSeries(p);
            var top := MaxVal(a, b, showIG, showYT);
            showYT && |b| >= 2 ==>
              var ys := PathYs(Smoothed(b, smoothing, SmoothWindow), width, ScrollPhase(t), top, h);
              forall i :: 0 <= i < width ==> 0.05 * h <= ys[i] <= 0.95 * h
  {
    var (a, b) := SelectSeries(p);
    var top := MaxVal(a, b, showIG, showYT);
    if showIG {
      SmoothedStaysInRange(a, smoothing, SmoothWindow, top);
    }
    if showYT {
      SmoothedStaysInRange(b, smoothing, SmoothWindow, top);
    }
  }
}

=== FILE: heatmap.dfy ===
/**
 The weekly activity heatmap's colour scale: the scale maximum, the linear
 RGB ramp from dark blue to orange, the legend, and the all-zero matrix
 shown when loading fails.
 */
module Heatmap {
  import opened Js
  import opened Seqs

  /** A numeric field is truthy when present and non-zero. */
  predicate NumTruthy(x: Option<real>) {
    x.Some? && x.value != 0.0
  }

  /**
   The scale maximum `data.max || Math.max(1, ...matrix.flat())`: the
   server's value when truthy; otherwise at least 1, at least every cell, and
   either 1 or one of the cells. It is never 0, so the ramp below never
   divides by zero.
   */
  function ScaleMax(dataMax: Option<real>, matrix: seq<seq<real>>): (r: real)
    ensures r != 0.0
    ensures NumTruthy(dataMax) ==> r == dataMax.value
    ensures !NumTruthy(dataMax) ==>
      && r >= 1.0
      && (forall i, j :: 0 <= i < |matrix| && 0 <= j < |matrix[i]| ==> matrix[i][j] <= r)
      && (r == 1.0 || exists i, j :: 0 <= i < |matrix| && 0 <= j < |matrix[i]| && r == matrix[i][j])
  {
    if NumTruthy(dataMax) then dataMax.value else MaxFrom(1.0, Flatten(matrix))
  }

  /** With no server maximum and no positive cell (an empty matrix, say) the scale is exactly 1. */
  lemma ScaleMaxWithoutPositiveCells(dataMax: Option<real>, matrix: seq<seq<real>>)
    requires !NumTruthy(dataMax)
    requires forall i, j :: 0 <= i < |matrix| && 0 <= j < |matrix[i]| ==> matrix[i][j] <= 1.0
    ensures ScaleMax(dataMax, matrix) == 1.0
  {
  }

  datatype Rgb = Rgb(r: int, g: int, b: int)

  const Cold := Rgb(20, 80, 120)
  const Hot := Rgb(255, 140, 40)

  /** The position of `v` on the ramp: 0 for non-positive counts, `v / max` otherwise. */
  function RampPosition(v: real, max: real): (t: real)
    requires max != 0.0
    ensures v <= 0.0 ==> t == 0.0
    ensures max > 0.0 && v <= max ==> t <= 1.0
    ensures max > 0.0 ==> t >= 0.0
    ensures max > 0.0 && v == max ==> t == 1.0
  {
    if v <= 0.0 then 0.0
    else if max > 0.0 && v <= max then DivideAtMostOne(v, max); v / max
    else v / max
  }

  lemma DivideAtMostOne(v: real, max: real)
    requires 0.0 < v <= max
    ensures 0.0 < v / max <= 1.0
  {
  }

  /**
   `colorFor(v)`: channel c is `Math.round(start + span * t)`. Counts of 0
   or less get the cold end; a count equal to a positive scale gets the hot end.
   */
  function ColorFor(v: real, max: real): (c: Rgb)
    requires max != 0.0
    ensures v <= 0.0 ==> c == Cold
    ensures max > 0.0 && v == max ==> c == Hot
  {
    var t := RampPosition(v, max);
    Rgb(Round(20.0 + 235.0 * t), Round(80.0 + 60.0 * t), Round(120.0 - 80.0 * t))
  }

  /** For counts up to a positive scale every channel stays between its two ends. */
  lemma ColorBounds(v: real, max: real)
    requires max > 0.0 && v <= max
    ensures 20 <= ColorFor(v, max).r <= 255
    ensures 80 <= ColorFor(v, max).g <= 140
    ensures 40 <= ColorFor(v, max).b <= 120
  {
    var t := RampPosition(v, max);
    assert 0.0 <= t <= 1.0;
  }

  /** A count above the scale (a cell larger than the server's maximum) pushes red past 255. */
  lemma ColorOverflowExample()
    ensures ColorFor(2.0, 1.0).r == 490
  {
  }

  /** On a positive scale the ramp is monotone: red and green never fall and blue never rises as the count grows. */
  lemma ColorMonotone(v1: real, v2: real, max: real)
    requires max > 0.0 && v1 <= v2
    ensures ColorFor(v1, max).r <= ColorFor(v2, max).r
    ensures ColorFor(v1, max).g <= ColorFor(v2, max).g
    ensures ColorFor(v1, max).b >= ColorFor(v2, max).b
  {
    var t1, t2 := RampPosition(v1, max), RampPosition(v2, max);
    if v1 > 0.0 {
      DivideMonotone(v1, v2, max);
    }
    assert t1 <= t2;
    RoundMonotone(20.0 + 235.0 * t1, 20.0 + 235.0 * t2);
    RoundMonotone(80.0 + 60.0 * t1, 80.0 + 60.0 * t2);
    RoundMonotone(120.0 - 80.0 * t2, 120.0 - 80.0 * t1);
  }

  lemma DivideMonotone(a: real, b: real, m: real)
    requires m > 0.0 && a <= b
    ensures a / m <= b / m
  {
    assert b / m - a / m == (b - a) / m;
  }

  // ---------------------------------------------------------------------------
  // Legend and fallback

  const LegendStops: seq<real> := [0.0, 0.25, 0.5, 0.75, 1.0]

  datatype LegendEntry = LegendEntry(swatch: Rgb, shown: int)

  /**
   The legend: one swatch per stop t, coloured as a count of `t * max` and
   labelled `Math.round(t * max)`. It runs from the cold end labelled 0 to
   the colour and label of the scale itself.
   */
  function Legend(max: real): (r: seq<LegendEntry>)
    requires max != 0.0
    ensures |r| == |LegendStops| == 5
    ensures forall i :: 0 <= i < |r| ==> r[i] == LegendEntry(ColorFor(LegendStops[i] * max, max), Round(LegendStops[i] * max))
    ensures r[0] == LegendEntry(Cold, 0)
    ensures r[4].shown == Round(max)
    ensures max > 0.0 ==> r[4].swatch == Hot
  {
    seq(5, i requires 0 <= i < 5 => LegendEntry(ColorFor(LegendStops[i] * max, max), Round(LegendStops[i] * max)))
  }

  /** On a positive scale the legend's labels and swatches run in order from cold to hot. */
  lemma LegendOrdered(max: real, i: nat, j: nat)
    requires max > 0.0 && i <= j < 5
    ensures Legend(max)[i].shown <= Legend(max)[j].shown
    ensures Legend(max)[i].swatch.r <= Legend(max)[j].swatch.r
    ensures Legend(max)[i].swatch.g <= Legend(max)[j].swatch.g
    ensures Legend(max)[i].swatch.b >= Legend(max)[j].swatch.b
  {
    var a, b := LegendStops[i] * max, LegendStops[j] * max;
    assert LegendStops[i] <= LegendStops[j];
    assert a <= b;
    RoundMonotone(a, b);
    ColorMonotone(a, b, max);
  }

  const FallbackRows: nat := 7
  const FallbackCols: nat := 24

  /** The matrix shown when the request fails: seven days of twenty-four hours, all zero. */
  function FallbackMatrix(): (m: seq<seq<real>>)
    ensures |m| == FallbackRows
    ensures forall i :: 0 <= i < |m| ==> |m[i]| == FallbackCols
    ensures forall i, j :: 0 <= i < |m| && 0 <= j < |m[i]| ==> m[i][j] == 0.0
  {
    seq(FallbackRows, _ => seq(FallbackCols, _ => 0.0))
  }

  /** After a failed load the scale is 1 and every cell has the cold colour. */
  lemma FallbackIsCold()
    ensures ScaleMax(None, FallbackMatrix()) == 1.0
    ensures forall i, j :: 0 <= i < |FallbackMatrix()| && 0 <= j < |FallbackMatrix()[i]| ==>
      ColorFor(FallbackMatrix()[i][j], 1.0) == Cold
  {
    ScaleMaxWithoutPositiveCells(None, FallbackMatrix());
  }

  /** The grid's column count `matrix[0]?.length || 0`. */
  function ColumnCount(matrix: seq<seq<real>>): (n: nat)
    ensures |matrix| == 0 ==> n == 0
    ensures |matrix| > 0 ==> n == |matrix[0]|
  {
    if |matrix| == 0 then 0 else |matrix[0]|
  }
}

=== FILE: js.dfy ===
/**
 Helpers that give Dafny meaning to the handful of JavaScript operations the
 dashboard relies on: `undefined` and truthiness, `||` and `??` on optional
 strings, ASCII lower-casing, `String.prototype.slice`, integer-to-decimal
 conversion, and `Math.floor`, `Math.round` and `%` on exact reals.
 */
module Js {

  /** An optional value: `None` stands for `undefined` (or `null`). */
  datatype Option<+T> = None | Some(value: T)

  /** A string-or-undefined is truthy iff it is a non-empty string. */
  predicate Truthy(s: Option<string>) {
    s.Some? && s.value != ""
  }

  /** JavaScript `a || b` on two string-or-undefined values. */
  function Or(a: Option<string>, b: Option<string>): Option<string> {
    if Truthy(a) then a else b
  }

  /** JavaScript `a ?? b`: falls through only when `a` is null or undefined. */
  function Coalesce<T>(a: Option<T>, b: Option<T>): Option<T> {
    if a.Some? then a else b
  }

  /** `s || ''` */
  function OrEmpty(s: Option<string>): string {
    if s.Some? then s.value else ""
  }

  /** A JSON scalar as the API may send it in a loosely typed field. */
  datatype Scalar = JStr(s: string) | JNum(n: int) | JBool(b: bool)

  /** `Boolean(x)` for a scalar-or-undefined. */
  predicate ScalarTruthy(x: Option<Scalar>) {
    match x
    case None => false
    case Some(JStr(s)) => s != ""
    case Some(JNum(n)) => n != 0
    case Some(JBool(b)) => b
  }

  /** `String(x)` for a string-or-undefined. */
  function StringOf(s: Option<string>): string {
    if s.Some? then s.value else "undefined"
  }

  // ---------------------------------------------------------------------------
  // Characters and strings

  function LowerChar(c: char): char {
    if 'A' <= c <= 'Z' then (c as int + 32) as char else c
  }

  /** `String.prototype.toLowerCase`, restricted to the ASCII letters. */
  function ToLower(s: string): (r: string)
    ensures |r| == |s|
    ensures forall i :: 0 <= i < |s| ==> r[i] == LowerChar(s[i])
  {
    seq(|s|, i requires 0 <= i < |s| => LowerChar(s[i]))
  }

  /** Two strings are equal up to ASCII case. */
  predicate EqualsIgnoreCase(a: string, b: string) {
    ToLower(a) == ToLower(b)
  }

  /** `s.slice(start, end)` for non-negative bounds: both are clamped to the length. */
  function Slice(s: string, start: nat, end: nat): (r: string)
    ensures end <= |s| && start <= end ==> r == s[start..end]
    ensures |r| <= |s|
    ensures start >= end || start >= |s| ==> r == ""
  {
    var a := if start < |s| then start else |s|;
    var b := if end < |s| then end else |s|;
    if a >= b then "" else s[a..b]
  }

  /** Lexicographic order on code points: how ISO timestamps compare. */
  predicate StrLe(a: string, b: string) {
    if |a| == 0 then true
    else if |b| == 0 then false
    else if a[0] < b[0] then true
    else if a[0] == b[0] then StrLe(a[1..], b[1..])
    else false
  }

  lemma {:induction false} StrLeTotal(a: string, b: string)
    ensures StrLe(a, b) || StrLe(b, a)
  {
    if |a| > 0 && |b| > 0 && a[0] == b[0] {
      StrLeTotal(a[1..], b[1..]);
    }
  }

  lemma {:induction false} StrLeTrans(a: string, b: string, c: string)
    requires StrLe(a, b) && StrLe(b, c)
    ensures StrLe(a, c)
  {
    if |a| > 0 && |b| > 0 && |c| > 0 && a[0] == b[0] && b[0] == c[0] {
      StrLeTrans(a[1..], b[1..], c[1..]);
    }
  }

  /** Past a common prefix, the first differing character decides the order. */
  lemma {:induction false} StrLeAtFirstDifference(a: string, b: string, k: nat)
    requires k < |a| && k < |b| && a[..k] == b[..k] && a[k] != b[k]
    ensures StrLe(a, b) <==> a[k] < b[k]
  {
    if k > 0 {
      assert a[0] == a[..k][0] == b[..k][0] == b[0];
      assert a[1..][..k - 1] == a[..k][1..];
      assert b[1..][..k - 1] == b[..k][1..];
      StrLeAtFirstDifference(a[1..], b[1..], k - 1);
    }
  }

  /** Only equal strings are each other's lower bound. */
  lemma {:induction false} StrLeAntisymmetric(a: string, b: string)
    requires StrLe(a, b) && StrLe(b, a)
    ensures a == b
  {
    if |a| > 0 && |b| > 0 {
      StrLeAntisymmetric(a[1..], b[1..]);
      assert a == [a[0]] + a[1..] && b == [b[0]] + b[1..];
    }
  }

  // ---------------------------------------------------------------------------
  // Decimal rendering of integers, as template literals do for integral numbers

  predicate IsDigit(c: char) {
    '0' <= c <= '9'
  }

  function DigitChar(d: nat): char
    requires d < 10
  {
    ('0' as int + d) as char
  }

  /** Decimal digits of `n`, most significant first, with no leading zeros. */
  function NatToString(n: nat): (r: string)
    ensures |r| > 0
    ensures forall i :: 0 <= i < |r| ==> IsDigit(r[i])
    ensures |r| > 1 ==> r[0] != '0'
  {
    if n < 10 then [DigitChar(n)] else NatToString(n / 10) + [DigitChar(n % 10)]
  }

  /** Value of a string of decimal digits. */
  function ParseNat(s: string): nat
    requires forall i :: 0 <= i < |s| ==> IsDigit(s[i])
  {
    if |s| == 0 then 0
    else
      assert IsDigit(s[|s| - 1]);
      ParseNat(s[..|s| - 1]) * 10 + (s[|s| - 1] as int - '0' as int)
  }

  /** Reading the digits back yields the number: the rendering loses nothing. */
  lemma {:induction false} ParseNatToString(n: nat)
    ensures ParseNat(NatToString(n)) == n
  {
    var r := NatToString(n);
    if n >= 10 {
      ParseNatToString(n / 10);
      assert r[..|r| - 1] == NatToString(n / 10);
    }
  }

  /** `${n}` for an integral number. */
  function IntToString(n: int): (r: string)
    ensures |r| > 0
    ensures n >= 0 ==> r == NatToString(n)
    ensures n < 0 ==> r[0] == '-' && r[1..] == NatToString(-n)
  {
    if n < 0 then "-" + NatToString(-n) else NatToString(n)
  }

  // ---------------------------------------------------------------------------
  // Arithmetic on exact reals

  function Max(a: real, b: real): real {
    if a >= b then a else b
  }

  function Min(a: real, b: real): real {
    if a <= b then a else b
  }

  /** `Math.max(lo, Math.min(hi, x))` */
  function Clamp(x: real, lo: real, hi: real): (r: real)
    requires lo <= hi
    ensures lo <= r <= hi
    ensures lo <= x <= hi ==> r == x
    ensures x <= lo ==> r == lo
    ensures hi <= x ==> r == hi
  {
    Max(lo, Min(hi, x))
  }

  /** `Math.round`: halves round up. */
  function Round(x: real): (r: int)
    ensures x - 0.5 < r as real <= x + 0.5
  {
    (x + 0.5).Floor
  }

  /** Rounding never reverses an order. */
  lemma RoundMonotone(x: real, y: real)
    requires x <= y
    ensures Round(x) <= Round(y)
  {
  }

  /** JavaScript `x % m` for `x >= 0` and `m > 0`. */
  function Mod(x: real, m: real): (r: real)
    requires x >= 0.0 && m > 0.0
    ensures 0.0 <= r < m
    ensures x < m ==> r == x
  {
    var k := (x / m).Floor;
    RemainderBounds(x, m, k as real);
    assert x < m ==> k == 0;
    x - m * k as real
  }

  lemma RemainderBounds(x: real, m: real, q: real)
    requires x >= 0.0 && m > 0.0 && q <= x / m < q + 1.0
    ensures 0.0 <= x - m * q < m
    ensures x < m ==> x / m < 1.0
  {
    var d := x / m - q;
    assert x - m * q == m * d;
    ScaleFraction(m, d);
    if x < m && x / m >= 1.0 {
      assert x == m * (x / m);
      ScaleAtLeastOne(m, x / m);
      assert false;
    }
  }

  lemma ScaleAtLeastOne(m: real, y: real)
    requires m > 0.0 && y >= 1.0
    ensures m * y >= m
  {
  }

  lemma ScaleFraction(m: real, d: real)
    requires m > 0.0 && 0.0 <= d < 1.0
    ensures 0.0 <= m * d < m
  {
  }
}

=== FILE: recent.dfy ===
/**
 The "verified recent posts" filter (`filterVerifiedRecent`): posted items
 only; Instagram items need a permalink, YouTube items a video id, and every
 kept item must be fresh (posted less than 48 hours ago, or of unknown time).
 The clock and the date parser are parameters.
 */
module Recent {
  import opened Js
  import opened Seqs

  /** The fields of `meta` the filter falls back to. */
  datatype PostMeta = PostMeta(
    status: Option<Scalar>,
    platform: Option<Scalar>,
    igPermalink: Option<Scalar>,
    ytVideoId: Option<Scalar>)

  /**
   A post object as the API returns it. A truthy value that is not an object
   reads `undefined` in every field, so it behaves like a `Post` with every
   field absent.
   */
  datatype Post = Post(
    status: Option<Scalar>,
    platform: Option<Scalar>,
    meta: Option<PostMeta>,
    postedAt: Option<Scalar>,
    updatedAt: Option<Scalar>,
    createdAt: Option<Scalar>,
    igPermalink: Option<Scalar>,
    permalink: Option<Scalar>,
    ytVideoId: Option<Scalar>,
    videoId: Option<Scalar>)

  const FortyEightHoursMs: int := 1000 * 60 * 60 * 48

  /** `String(x ?? '')` */
  function Text(x: Option<Scalar>): string {
    match x
    case None => ""
    case Some(JStr(s)) => s
    case Some(JNum(n)) => IntToString(n)
    case Some(JBool(b)) => if b then "true" else "false"
  }

  function MetaField(p: Post, f: PostMeta -> Option<Scalar>): Option<Scalar> {
    if p.meta.Some? then f(p.meta.value) else None
  }

  /** `String(it?.status ?? it?.meta?.status ?? '').toLowerCase()` */
  function StatusOf(p: Post): string {
    ToLower(Text(Coalesce(p.status, MetaField(p, (m: PostMeta) => m.status))))
  }

  /** `String(it?.platform ?? it?.meta?.platform ?? '').toLowerCase()` */
  function PlatformOf(p: Post): string {
    ToLower(Text(Coalesce(p.platform, MetaField(p, (m: PostMeta) => m.platform))))
  }

  /** `it?.igPermalink ?? it?.meta?.igPermalink ?? it?.permalink ?? null` */
  function PermalinkOf(p: Post): Option<Scalar> {
    Coalesce(Coalesce(p.igPermalink, MetaField(p, (m: PostMeta) => m.igPermalink)), p.permalink)
  }

  /** `it?.ytVideoId ?? it?.meta?.ytVideoId ?? it?.videoId ?? null` */
  function VideoIdOf(p: Post): Option<Scalar> {
    Coalesce(Coalesce(p.ytVideoId, MetaField(p, (m: PostMeta) => m.ytVideoId)), p.videoId)
  }

  /** `it?.postedAt ?? it?.updatedAt ?? it?.createdAt ?? 0` */
  function TimeSource(p: Post): Scalar {
    var t := Coalesce(Coalesce(Coalesce(p.postedAt, p.updatedAt), p.createdAt), Some(JNum(0)));
    t.value
  }

  /** Freshness; `toMs` plays `new Date(x).getTime()`, with `None` for NaN. */
  predicate IsFresh(p: Post, now: int, toMs: Scalar -> Option<int>) {
    match toMs(TimeSource(p))
    case None => true
    case Some(t) => now - t < FortyEightHoursMs
  }

  /** The per-item test of the second `filter`. */
  predicate Keep(p: Post, now: int, toMs: Scalar -> Option<int>) {
    if StatusOf(p) != "posted" then false
    else if PlatformOf(p) == "instagram" then ScalarTruthy(PermalinkOf(p)) && IsFresh(p, now, toMs)
    else if PlatformOf(p) == "youtube" then ScalarTruthy(VideoIdOf(p)) && IsFresh(p, now, toMs)
    else IsFresh(p, now, toMs)
  }

  /**
   `filterVerifiedRecent`. A non-array (`None`) gives the empty list. Otherwise
   the result lists, in input order, exactly the non-falsy entries that pass
   `Keep`, each as often as the input holds it.
   */
  function FilterVerifiedRecent(items: Option<seq<Option<Post>>>, now: int, toMs: Scalar -> Option<int>): (r: seq<Post>)
    ensures items.None? ==> r == []
    ensures items.Some? ==> forall i :: 0 <= i < |r| ==> Some(r[i]) in items.value && Keep(r[i], now, toMs)
    ensures items.Some? ==> forall i :: 0 <= i < |items.value| && items.value[i].Some? && Keep(items.value[i].value, now, toMs)
                              ==> items.value[i].value in r
    ensures items.Some? ==> IsSubseq(Wrap(r), items.value)
    ensures items.Some? ==> forall x :: multiset(r)[x] == if Keep(x, now, toMs) then multiset(items.value)[Some(x)] else 0
  {
    if items.None? then [] else Present(items.value, p => Keep(p, now, toMs))
  }

  // ---------------------------------------------------------------------------
  // The rules, one by one

  /** A kept item's status reads "posted"; the `meta` status is consulted only when the top-level one is null or undefined. */
  lemma KeptIsPosted(p: Post, now: int, toMs: Scalar -> Option<int>)
    requires Keep(p, now, toMs)
    ensures p.status.Some? ==> ToLower(Text(p.status)) == "posted"
    ensures p.status.None? ==> p.meta.Some? && ToLower(Text(p.meta.value.status)) == "posted"
  {
  }

  /** An empty top-level status is not null: it blocks the `meta` fallback and the item is dropped. */
  lemma EmptyStatusBlocksFallback(p: Post, now: int, toMs: Scalar -> Option<int>)
    requires p.status == Some(JStr(""))
    ensures !Keep(p, now, toMs)
  {
    assert StatusOf(p) == "";
  }

  /** A posted Instagram item is kept iff it has a truthy permalink and is fresh. */
  lemma InstagramRule(p: Post, now: int, toMs: Scalar -> Option<int>)
    requires StatusOf(p) == "posted" && PlatformOf(p) == "instagram"
    ensures Keep(p, now, toMs) <==> ScalarTruthy(PermalinkOf(p)) && IsFresh(p, now, toMs)
  {
  }

  /** A posted YouTube item is kept iff it has a truthy video id and is fresh. */
  lemma YoutubeRule(p: Post, now: int, toMs: Scalar -> Option<int>)
    requires StatusOf(p) == "posted" && PlatformOf(p) == "youtube"
    ensures Keep(p, now, toMs) <==> ScalarTruthy(VideoIdOf(p)) && IsFresh(p, now, toMs)
  {
    assert "youtube" != "instagram";
  }

  /** A posted item on any other platform is kept iff it is fresh, link or not. */
  lemma OtherPlatformRule(p: Post, now: int, toMs: Scalar -> Option<int>)
    requires StatusOf(p) == "posted" && PlatformOf(p) != "instagram" && PlatformOf(p) != "youtube"
    ensures Keep(p, now, toMs) <==> IsFresh(p, now, toMs)
  {
  }

  /** The permalink chain prefers `igPermalink`, then `meta.igPermalink`, then `permalink`, skipping only absent values. */
  lemma PermalinkPrecedence(p: Post)
    ensures p.igPermalink.Some? ==> PermalinkOf(p) == p.igPermalink
    ensures p.igPermalink.None? && p.meta.Some? && p.meta.value.igPermalink.Some? ==> PermalinkOf(p) == p.meta.value.igPermalink
    ensures p.igPermalink.None? && (p.meta.None? || p.meta.value.igPermalink.None?) ==> PermalinkOf(p) == p.permalink
  {
  }

  /** Freshness reads the first present of `postedAt`, `updatedAt`, `createdAt`; unparsable times count as fresh. */
  lemma FreshnessRule(p: Post, now: int, toMs: Scalar -> Option<int>)
    ensures p.postedAt.Some? ==> TimeSource(p) == p.postedAt.value
    ensures p.postedAt.None? && p.updatedAt.Some? ==> TimeSource(p) == p.updatedAt.value
    ensures p.postedAt.None? && p.updatedAt.None? && p.createdAt.Some? ==> TimeSource(p) == p.createdAt.value
    ensures p.postedAt.None? && p.updatedAt.None? && p.createdAt.None? ==> TimeSource(p) == JNum(0)
    ensures toMs(TimeSource(p)).None? ==> IsFresh(p, now, toMs)
    ensures toMs(TimeSource(p)).Some? ==>
      (IsFresh(p, now, toMs) <==> toMs(TimeSource(p)).value > now - 172800000)
  {
  }
}

=== FILE: schedule.dfy ===
/**
 The upcoming-posts pipeline of the schedule panel (`SchedulePanel.load`):
 merge the Instagram and YouTube queue answers, keep the items scheduled in
 the future at a `:20` minute, keep the first item per (platform, minute),
 and sort by scheduled time. The clock and `Date.parse` are parameters.
 */
module Schedule {
  import opened Js
  import opened Seqs

  /** A queue entry as the schedule panel reads it; `dbId` is `_id`. */
  datatype QItem = QItem(
    dbId: Option<string>,
    id: Option<string>,
    platform: Option<string>,
    scheduledAt: Option<string>,
    title: Option<string>)

  /** Milliseconds of grace before a just-passed slot stops counting as upcoming. */
  const GraceMs: int := 5000

  /**
   `isFuture`: the timestamp parses to a finite time (`parse` yields `None`
   for NaN) no earlier than five seconds before `now`.
   */
  predicate IsFuture(iso: string, now: int, parse: string -> Option<int>) {
    match parse(iso)
    case None => false
    case Some(t) => t >= now - GraceMs
  }

  /** What is upcoming now was upcoming at every earlier moment too. */
  lemma IsFutureEarlier(iso: string, earlier: int, now: int, parse: string -> Option<int>)
    requires earlier <= now && IsFuture(iso, now, parse)
    ensures IsFuture(iso, earlier, parse)
  {
  }

  /** `isSlot20`: characters 14 and 15 (the minutes of an ISO time) read "20". */
  function IsSlot20(iso: string): (r: bool)
    ensures r <==> |iso| >= 16 && iso[14] == '2' && iso[15] == '0'
  {
    var m := Slice(iso, 14, 16);
    assert |iso| >= 16 ==> m == iso[14..16];
    assert |iso| < 16 ==> |m| < 2;
    m == "20"
  }

  lemma IsSlot20Examples()
    ensures IsSlot20("2024-05-01T15:20:00Z")
    ensures !IsSlot20("2024-05-01T15:25:00Z")
    ensures !IsSlot20("2024-05-01T15:2")
  {
  }

  /** The filter applied to each non-null merged entry. */
  predicate Upcoming(it: QItem, now: int, parse: string -> Option<int>) {
    && Truthy(it.scheduledAt)
    && IsFuture(it.scheduledAt.value, now, parse)
    && IsSlot20(it.scheduledAt.value)
  }

  /** `resp?.items ?? []` */
  function ItemsOf(resp: Option<seq<Option<QItem>>>): seq<Option<QItem>> {
    if resp.Some? then resp.value else []
  }

  /** The Instagram entries followed by the YouTube entries, null entries and non-upcoming items dropped. */
  function Merged(ig: Option<seq<Option<QItem>>>, yt: Option<seq<Option<QItem>>>,
                  now: int, parse: string -> Option<int>): (r: seq<QItem>)
    ensures forall i :: 0 <= i < |r| ==> Upcoming(r[i], now, parse)
    ensures forall i :: 0 <= i < |r| ==> Some(r[i]) in ItemsOf(ig) + ItemsOf(yt)
    ensures var all := ItemsOf(ig) + ItemsOf(yt);
      forall i :: 0 <= i < |all| && all[i].Some? && Upcoming(all[i].value, now, parse) ==> all[i].value in r
    ensures IsSubseq(Wrap(r), ItemsOf(ig) + ItemsOf(yt))
    ensures forall x :: multiset(r)[x] == if Upcoming(x, now, parse) then multiset(ItemsOf(ig) + ItemsOf(yt))[Some(x)] else 0
  {
    Present(ItemsOf(ig) + ItemsOf(yt), it => Upcoming(it, now, parse))
  }

  // ---------------------------------------------------------------------------
  // First-wins de-duplication

  /** `lower(platform || "") + "|" + String(scheduledAt).slice(0, 16)`: platform and minute. */
  function Key(it: QItem): string {
    ToLower(OrEmpty(it.platform)) + "|" + Slice(StringOf(it.scheduledAt), 0, 16)
  }

  function KeySet(s: seq<QItem>): set<string> {
    set i | 0 <= i < |s| :: Key(s[i])
  }

  /** Reference meaning of the de-duplication: an item survives iff no earlier item has its key. */
  function FirstPerKey(s: seq<QItem>): seq<QItem> {
    if |s| == 0 then []
    else
      var init := s[..|s| - 1];
      if Key(s[|s| - 1]) in KeySet(init) then FirstPerKey(init)
      else FirstPerKey(init) + [s[|s| - 1]]
  }

  /** Position of the first item carrying `key`. */
  function FirstIndexOf(s: seq<QItem>, key: string): (i: nat)
    requires key in KeySet(s)
    ensures i < |s| && Key(s[i]) == key
    ensures forall j :: 0 <= j < i ==> Key(s[j]) != key
  {
    if Key(s[0]) == key then 0
    else
      assert key in KeySet(s[1..]) by {
        var j :| 0 <= j < |s| && Key(s[j]) == key;
        assert s[1..][j - 1] == s[j];
      }
      1 + FirstIndexOf(s[1..], key)
  }

  lemma KeySetAppend(s: seq<QItem>, x: QItem)
    ensures KeySet(s + [x]) == KeySet(s) + {Key(x)}
  {
    var t := s + [x];
    assert forall i :: 0 <= i < |s| ==> t[i] == s[i];
    assert t[|s|] == x;
  }

  predicate DistinctKeys(s: seq<QItem>) {
    forall i, j :: 0 <= i < j < |s| ==> Key(s[i]) != Key(s[j])
  }

  /** The de-duplicated list keeps exactly the keys of the input. */
  lemma {:induction false} FirstPerKeyKeys(s: seq<QItem>)
    ensures KeySet(FirstPerKey(s)) == KeySet(s)
  {
    if |s| > 0 {
      var init := s[..|s| - 1];
      var x := s[|s| - 1];
      assert s == init + [x];
      FirstPerKeyKeys(init);
      KeySetAppend(init, x);
      if Key(x) !in KeySet(init) {
        KeySetAppend(FirstPerKey(init), x);
      }
    }
  }

  /** Each key occurs once in the de-duplicated list. */
  lemma {:induction false} FirstPerKeyDistinct(s: seq<QItem>)
    ensures DistinctKeys(FirstPerKey(s))
  {
    if |s| > 0 {
      var init := s[..|s| - 1];
      var x := s[|s| - 1];
      FirstPerKeyDistinct(init);
      FirstPerKeyKeys(init);
      var d0 := FirstPerKey(init);
      if Key(x) !in KeySet(init) {
        var d := d0 + [x];
        forall i, j | 0 <= i < j < |d| ensures Key(d[i]) != Key(d[j]) {
          if j == |d0| {
            assert Key(d0[i]) in KeySet(d0);
          } else {
            assert d[i] == d0[i] && d[j] == d0[j];
          }
        }
      }
    }
  }

  /** Every item of `d` is the first item of `s` with its key. */
  predicate FirstWins(d: seq<QItem>, s: seq<QItem>) {
    forall k :: 0 <= k < |d| ==> Key(d[k]) in KeySet(s) && d[k] == s[FirstIndexOf(s, Key(d[k]))]
  }

  /** The item kept for a key is the first input item with that key. */
  lemma {:induction false} FirstPerKeyFirstWins(s: seq<QItem>)
    ensures FirstWins(FirstPerKey(s), s)
  {
    if |s| > 0 {
      var init := s[..|s| - 1];
      var x := s[|s| - 1];
      assert s == init + [x];
      FirstPerKeyFirstWins(init);
      var d0 := FirstPerKey(init);
      FirstWinsExtend(d0, init, x);
      if Key(x) !in KeySet(init) {
        FirstWinsNewKey(d0, init, x);
      }
    }
  }

  lemma FirstWinsExtend(d: seq<QItem>, s: seq<QItem>, x: QItem)
    requires FirstWins(d, s)
    ensures FirstWins(d, s + [x])
  {
    forall k | 0 <= k < |d|
      ensures Key(d[k]) in KeySet(s + [x]) && d[k] == (s + [x])[FirstIndexOf(s + [x], Key(d[k]))]
    {
      FirstIndexPrefix(s, x, Key(d[k]));
      var f := FirstIndexOf(s, Key(d[k]));
      assert (s + [x])[f] == s[f];
    }
  }

  lemma FirstWinsNewKey(d: seq<QItem>, s: seq<QItem>, x: QItem)
    requires FirstWins(d, s + [x]) && Key(x) !in KeySet(s)
    ensures FirstWins(d + [x], s + [x])
  {
    var t := s + [x];
    KeySetAppend(s, x);
    var f := FirstIndexOf(t, Key(x));
    assert f == |s|;
    var d' := d + [x];
    forall k | 0 <= k < |d'|
      ensures Key(d'[k]) in KeySet(t) && d'[k] == t[FirstIndexOf(t, Key(d'[k]))]
    {
      if k < |d| {
        assert d'[k] == d[k];
      }
    }
  }

  /** Keys are distinct exactly when there are as many keys as items. */
  lemma {:induction false} DistinctKeysCount(s: seq<QItem>)
    ensures |KeySet(s)| <= |s|
    ensures DistinctKeys(s) <==> |KeySet(s)| == |s|
  {
    if |s| > 0 {
      var init := s[..|s| - 1];
      var x := s[|s| - 1];
      assert s == init + [x];
      DistinctKeysCount(init);
      KeySetAppend(init, x);
      if Key(x) in KeySet(init) {
        assert KeySet(s) == KeySet(init);
        RepeatedKey(init, x);
      } else {
        assert |KeySet(s)| == |KeySet(init)| + 1;
        DistinctExtend(init, x);
      }
    }
  }

  lemma RepeatedKey(init: seq<QItem>, x: QItem)
    requires Key(x) in KeySet(init)
    ensures !DistinctKeys(init + [x])
  {
    var s := init + [x];
    var i :| 0 <= i < |init| && Key(init[i]) == Key(x);
    assert s[i] == init[i] && s[|init|] == x;
  }

  lemma DistinctExtend(init: seq<QItem>, x: QItem)
    requires Key(x) !in KeySet(init)
    ensures DistinctKeys(init + [x]) <==> DistinctKeys(init)
  {
    var s := init + [x];
    assert forall i :: 0 <= i < |init| ==> s[i] == init[i];
    if DistinctKeys(init) {
      forall i, j | 0 <= i < j < |s| ensures Key(s[i]) != Key(s[j]) {
        if j == |init| {
          assert Key(init[i]) in KeySet(init);
        }
      }
    }
  }

  lemma FirstIndexPrefix(s: seq<QItem>, x: QItem, key: string)
    requires key in KeySet(s)
    ensures key in KeySet(s + [x])
    ensures FirstIndexOf(s + [x], key) == FirstIndexOf(s, key)
  {
    KeySetAppend(s, x);
    var t := s + [x];
    var a := FirstIndexOf(t, key);
    var b := FirstIndexOf(s, key);
    assert t[b] == s[b];
  }

  /** The de-duplicated list keeps the input's order. */
  lemma {:induction false} FirstPerKeyIsSubseq(s: seq<QItem>)
    ensures IsSubseq(FirstPerKey(s), s)
  {
    if |s| > 0 {
      var init := s[..|s| - 1];
      FirstPerKeyIsSubseq(init);
      var d := FirstPerKey(s);
      if Key(s[|s| - 1]) !in KeySet(init) {
        assert d[..|d| - 1] == FirstPerKey(init);
      }
    }
  }

  /**
   The loop of `load` over the merged list with a `seen` set: the result is
   the first-per-key reference, so its keys are distinct, every input key
   survives, and the order of the input is kept.
   */
  method Dedupe(items: seq<QItem>) returns (out: seq<QItem>)
    ensures out == FirstPerKey(items)
    ensures KeySet(out) == KeySet(items)
    ensures DistinctKeys(out)
    ensures FirstWins(out, items)
    ensures IsSubseq(out, items)
  {
    out := DedupeSeen(items);
    FirstPerKeyFacts(items);
  }

  /** The seen-set loop of the panel: keep an item when its key has not been seen yet. */
  method DedupeSeen(items: seq<QItem>) returns (out: seq<QItem>)
    ensures out == FirstPerKey(items)
  {
    var seen: set<string> := {};
    out := [];
    var i := 0;
    while i < |items|
      invariant 0 <= i <= |items|
      invariant seen == KeySet(items[..i])
      invariant out == FirstPerKey(items[..i])
    {
      DedupeStep(items, i, seen, out);
      var key := Key(items[i]);
      if key !in seen {
        seen := seen + {key};
        out := out + [items[i]];
      }
      i := i + 1;
    }
    assert items[..|items|] == items;
  }

  /** One turn of the seen-set loop: the next item is kept exactly when its key is new. */
  lemma DedupeStep(items: seq<QItem>, i: nat, seen: set<string>, out: seq<QItem>)
    requires i < |items| && seen == KeySet(items[..i]) && out == FirstPerKey(items[..i])
    ensures KeySet(items[..i + 1]) == seen + {Key(items[i])}
    ensures FirstPerKey(items[..i + 1]) == if Key(items[i]) in seen then out else out + [items[i]]
  {
    var s, x := items[..i], items[i];
    assert items[..i + 1] == s + [x];
    KeySetAppend(s, x);
    assert (s + [x])[..|s|] == s;
  }

  /** The four promises of the first-per-key reference, gathered. */
  lemma FirstPerKeyFacts(items: seq<QItem>)
    ensures KeySet(FirstPerKey(items)) == KeySet(items)
    ensures DistinctKeys(FirstPerKey(items))
    ensures FirstWins(FirstPerKey(items), items)
    ensures IsSubseq(FirstPerKey(items), items)
  {
    FirstPerKeyKeys(items);
    FirstPerKeyDistinct(items);
    FirstPerKeyFirstWins(items);
    FirstPerKeyIsSubseq(items);
  }

  // ---------------------------------------------------------------------------
  // Sorting and the whole pipeline

  /** `String(a.scheduledAt).localeCompare(String(b.scheduledAt)) <= 0`, read as code-point order. */
  predicate ScheduledLe(a: QItem, b: QItem) {
    StrLe(StringOf(a.scheduledAt), StringOf(b.scheduledAt))
  }

  /**
   Where code-point order departs from the collation `localeCompare` uses:
   `+` (U+002B) precedes `-` (U+002D) here, so of two otherwise equal
   timestamps with opposite UTC offsets the `+` one sorts first, while the
   root collation ranks `-` (punctuation) before `+` (a symbol). For example
   `t = "2024-05-01T10:20:00"` and `offset = "02:00"`.
   */
  lemma OppositeOffsetsByCodePoint(t: string, offset: string)
    ensures var plus := QItem(None, None, None, Some(t + "+" + offset), None);
            var minus := QItem(None, None, None, Some(t + "-" + offset), None);
            ScheduledLe(plus, minus) && !ScheduledLe(minus, plus)
  {
    var p, m := t + "+" + offset, t + "-" + offset;
    var k := |t|;
    assert p[..k] == t == m[..k] && p[k] == '+' && m[k] == '-';
    StrLeAtFirstDifference(p, m, k);
    StrLeAtFirstDifference(m, p, k);
  }

  lemma ScheduledLeIsPreorder()
    ensures TotalPreorder(ScheduledLe)
  {
    forall a, b ensures ScheduledLe(a, b) || ScheduledLe(b, a) {
      StrLeTotal(StringOf(a.scheduledAt), StringOf(b.scheduledAt));
    }
    forall a, b, c | ScheduledLe(a, b) && ScheduledLe(b, c) ensures ScheduledLe(a, c) {
      StrLeTrans(StringOf(a.scheduledAt), StringOf(b.scheduledAt), StringOf(c.scheduledAt));
    }
  }

  /**
   `load` after both fetches succeed: upcoming `:20` items only, one per
   platform and minute (the first met in Instagram-then-YouTube order),
   ascending by scheduled time, with items of equal time left in the order
   the de-duplicated list gives them.
   */
  method UpcomingSchedule(ig: Option<seq<Option<QItem>>>, yt: Option<seq<Option<QItem>>>,
                          now: int, parse: string -> Option<int>) returns (items: seq<QItem>)
    ensures forall i :: 0 <= i < |items| ==> Upcoming(items[i], now, parse)
    ensures forall i :: 0 <= i < |items| ==> Some(items[i]) in ItemsOf(ig) + ItemsOf(yt)
    ensures DistinctKeys(items)
    ensures KeySet(items) == KeySet(Merged(ig, yt, now, parse))
    ensures multiset(items) == multiset(FirstPerKey(Merged(ig, yt, now, parse)))
    ensures forall i, j :: 0 <= i < j < |items| ==> ScheduledLe(items[i], items[j])
    ensures Stable(items, FirstPerKey(Merged(ig, yt, now, parse)), ScheduledLe)
  {
    var merged := Merged(ig, yt, now, parse);
    var deduped := Dedupe(merged);
    ScheduledLeIsPreorder();
    items := SortBy(deduped, ScheduledLe);
    SortByStable(deduped, ScheduledLe);
    forall i | 0 <= i < |items|
      ensures items[i] in deduped && items[i] in merged
    {
      assert items[i] in multiset(items);
      assert items[i] in multiset(deduped);
      SubseqMembers(deduped, merged, items[i]);
    }
    DistinctKeysAfterPermutation(deduped, items);
    KeySetOfPermutation(deduped, items);
  }

  lemma {:induction false} SubseqMembers(a: seq<QItem>, b: seq<QItem>, x: QItem)
    requires IsSubseq(a, b) && x in a
    ensures x in b
    decreases |b|
  {
    if a[|a| - 1] == b[|b| - 1] && IsSubseq(a[..|a| - 1], b[..|b| - 1]) {
      if x != a[|a| - 1] {
        assert x in a[..|a| - 1];
        SubseqMembers(a[..|a| - 1], b[..|b| - 1], x);
      }
    } else {
      SubseqMembers(a, b[..|b| - 1], x);
    }
  }

  lemma KeySetOfPermutation(a: seq<QItem>, b: seq<QItem>)
    requires multiset(a) == multiset(b)
    ensures KeySet(a) == KeySet(b)
  {
    forall k | k in KeySet(a) ensures k in KeySet(b) {
      var i :| 0 <= i < |a| && Key(a[i]) == k;
      assert a[i] in multiset(b);
      var j :| 0 <= j < |b| && b[j] == a[i];
    }
    forall k | k in KeySet(b) ensures k in KeySet(a) {
      var i :| 0 <= i < |b| && Key(b[i]) == k;
      assert b[i] in multiset(a);
      var j :| 0 <= j < |a| && a[j] == b[i];
    }
  }

  /** A permutation of a list with distinct keys has distinct keys. */
  lemma DistinctKeysAfterPermutation(a: seq<QItem>, b: seq<QItem>)
    requires multiset(a) == multiset(b) && DistinctKeys(a)
    ensures DistinctKeys(b)
  {
    KeySetOfPermutation(a, b);
    DistinctKeysCount(a);
    DistinctKeysCount(b);
    assert |a| == |multiset(a)| == |multiset(b)| == |b|;
  }
}

=== FILE: seqs.dfy ===
/**
 Sequence vocabulary shared by the models: sums, the subsequence relation,
 order-preserving filters and a stable insertion sort. Every list the
 dashboard builds is one of these shapes applied to a JSON array.
 */
module Seqs {
  import opened Js

  // ---------------------------------------------------------------------------
  // Sums

  function Sum(s: seq<real>): real {
    if |s| == 0 then 0.0 else Sum(s[..|s| - 1]) + s[|s| - 1]
  }

  /** The sum can also be peeled from the front. */
  lemma {:induction false} SumFront(s: seq<real>)
    requires |s| > 0
    ensures Sum(s) == s[0] + Sum(s[1..])
  {
    if |s| > 1 {
      SumFront(s[..|s| - 1]);
      assert s[..|s| - 1][1..] == s[1..][..|s| - 2];
    }
  }

  /** Elements bounded by `lo` and `hi` give a sum between `|s|·lo` and `|s|·hi`. */
  lemma {:induction false} SumBounds(s: seq<real>, lo: real, hi: real)
    requires forall i :: 0 <= i < |s| ==> lo <= s[i] <= hi
    ensures |s| as real * lo <= Sum(s) <= |s| as real * hi
  {
    if |s| > 0 {
      SumBounds(s[..|s| - 1], lo, hi);
      assert |s| as real * lo == (|s| - 1) as real * lo + lo;
      assert |s| as real * hi == (|s| - 1) as real * hi + hi;
    }
  }

  // ---------------------------------------------------------------------------
  // Subsequences and filters

  /** The larger of `m` and every element of `s`. */
  function MaxFrom(m: real, s: seq<real>): (r: real)
    ensures r >= m
    ensures forall i :: 0 <= i < |s| ==> s[i] <= r
    ensures r == m || r in s
  {
    if |s| == 0 then m
    else
      var init := MaxFrom(m, s[..|s| - 1]);
      assert forall i :: 0 <= i < |s| - 1 ==> s[i] == s[..|s| - 1][i];
      Max(init, s[|s| - 1])
  }

  /** `matrix.flat()`: the rows, one after another. */
  function Flatten<T>(m: seq<seq<T>>): (r: seq<T>)
    ensures forall i, j :: 0 <= i < |m| && 0 <= j < |m[i]| ==> m[i][j] in r
    ensures forall x :: x in r ==> exists i :: 0 <= i < |m| && x in m[i]
  {
    if |m| == 0 then []
    else
      var init := Flatten(m[..|m| - 1]);
      assert forall i :: 0 <= i < |m| - 1 ==> m[i] == m[..|m| - 1][i];
      init + m[|m| - 1]
  }

  /** `a` is obtained from `b` by deleting elements, keeping the order of the rest. */
  ghost predicate IsSubseq<T>(a: seq<T>, b: seq<T>)
    decreases |b|
  {
    if |a| == 0 then true
    else if |b| == 0 then false
    else
      (a[|a| - 1] == b[|b| - 1] && IsSubseq(a[..|a| - 1], b[..|b| - 1]))
      || IsSubseq(a, b[..|b| - 1])
  }

  /** `Array.prototype.filter`: the elements satisfying `p`, in order. */
  function Filter<T>(s: seq<T>, p: T -> bool): (r: seq<T>)
    ensures |r| <= |s|
    ensures forall i :: 0 <= i < |r| ==> r[i] in s && p(r[i])
    ensures forall i :: 0 <= i < |s| && p(s[i]) ==> s[i] in r
  {
    if |s| == 0 then []
    else
      var init := Filter(s[..|s| - 1], p);
      assert forall i :: 0 <= i < |s| - 1 ==> s[i] == s[..|s| - 1][i];
      if p(s[|s| - 1]) then init + [s[|s| - 1]] else init
  }

  /** A filter keeps its survivors in their original order. */
  lemma {:induction false} FilterIsSubseq<T>(s: seq<T>, p: T -> bool)
    ensures IsSubseq(Filter(s, p), s)
  {
    if |s| > 0 {
      FilterIsSubseq(s[..|s| - 1], p);
      var r := Filter(s, p);
      if p(s[|s| - 1]) {
        assert r[..|r| - 1] == Filter(s[..|s| - 1], p);
      }
    }
  }

  /** A filter keeps every occurrence of a survivor and none of the rest. */
  lemma {:induction false} FilterCounts<T>(s: seq<T>, p: T -> bool, x: T)
    ensures multiset(Filter(s, p))[x] == if p(x) then multiset(s)[x] else 0
  {
    if |s| > 0 {
      FilterCounts(s[..|s| - 1], p, x);
      assert s == s[..|s| - 1] + [s[|s| - 1]];
    }
  }

  /** Filtering twice with the same predicate changes nothing the second time. */
  lemma {:induction false} FilterIdempotent<T>(s: seq<T>, p: T -> bool)
    ensures Filter(Filter(s, p), p) == Filter(s, p)
  {
    if |s| > 0 {
      FilterIdempotent(s[..|s| - 1], p);
      var r := Filter(s, p);
      if p(s[|s| - 1]) {
        assert r[..|r| - 1] == Filter(s[..|s| - 1], p);
      }
    }
  }

  function Wrap<T>(s: seq<T>): (r: seq<Option<T>>)
    ensures |r| == |s| && forall i :: 0 <= i < |s| ==> r[i] == Some(s[i])
  {
    seq(|s|, i requires 0 <= i < |s| => Some(s[i]))
  }

  /**
   `list.filter(x => x && p(x))` on an array whose entries may be null
   (`None`): the present entries satisfying `p`, in order.
   */
  function Present<T(!new)>(s: seq<Option<T>>, p: T -> bool): (r: seq<T>)
    ensures PresentSpec(s, p, r)
    ensures forall i :: 0 <= i < |r| ==> Some(r[i]) in s && p(r[i])
    ensures forall i :: 0 <= i < |s| && s[i].Some? && p(s[i].value) ==> s[i].value in r
    ensures IsSubseq(Wrap(r), s)
    ensures forall x :: multiset(r)[x] == if p(x) then multiset(s)[Some(x)] else 0
  {
    if |s| == 0 then []
    else
      var init := s[..|s| - 1];
      var r0 := Present(init, p);
      var last := s[|s| - 1];
      assert s == init + [last];
      var r := if last.Some? && p(last.value) then r0 + [last.value] else r0;
      PresentStep(init, last, r0, r, p);
      r
  }

  /** What `Present` promises, gathered so that one step of it can be proved on its own. */
  ghost predicate PresentSpec<T(!new)>(s: seq<Option<T>>, p: T -> bool, r: seq<T>) {
    && (forall i :: 0 <= i < |r| ==> Some(r[i]) in s && p(r[i]))
    && (forall i :: 0 <= i < |s| && s[i].Some? && p(s[i].value) ==> s[i].value in r)
    && IsSubseq(Wrap(r), s)
    && (forall x :: multiset(r)[x] == if p(x) then multiset(s)[Some(x)] else 0)
  }

  lemma PresentStep<T(!new)>(init: seq<Option<T>>, last: Option<T>, r0: seq<T>, r: seq<T>, p: T -> bool)
    requires PresentSpec(init, p, r0)
    requires r == if last.Some? && p(last.value) then r0 + [last.value] else r0
    ensures PresentSpec(init + [last], p, r)
  {
    PresentKeptStep(init, last, r0, r, p);
    PresentAllStep(init, last, r0, r, p);
    PresentCountStep(init, last, r0, r, p);
    PresentSubseqStep(init, last, r0, r, p);
  }

  lemma PresentSubseqStep<T>(init: seq<Option<T>>, last: Option<T>, r0: seq<T>, r: seq<T>, p: T -> bool)
    requires IsSubseq(Wrap(r0), init)
    requires r == if last.Some? && p(last.value) then r0 + [last.value] else r0
    ensures IsSubseq(Wrap(r), init + [last])
  {
    if last.Some? && p(last.value) {
      assert Wrap(r) == Wrap(r0) + [last];
    }
    SubseqExtend(Wrap(r0), init, last);
  }

  lemma PresentKeptStep<T>(init: seq<Option<T>>, last: Option<T>, r0: seq<T>, r: seq<T>, p: T -> bool)
    requires forall i :: 0 <= i < |r0| ==> Some(r0[i]) in init && p(r0[i])
    requires r == if last.Some? && p(last.value) then r0 + [last.value] else r0
    ensures forall i :: 0 <= i < |r| ==> Some(r[i]) in init + [last] && p(r[i])
  {
    forall i | 0 <= i < |r| ensures Some(r[i]) in init + [last] && p(r[i]) {
      if i < |r0| {
        assert r[i] == r0[i];
        assert Some(r0[i]) in init;
      }
    }
  }

  lemma PresentAllStep<T>(init: seq<Option<T>>, last: Option<T>, r0: seq<T>, r: seq<T>, p: T -> bool)
    requires forall i :: 0 <= i < |init| && init[i].Some? && p(init[i].value) ==> init[i].value in r0
    requires r == if last.Some? && p(last.value) then r0 + [last.value] else r0
    ensures var s := init + [last];
      forall i :: 0 <= i < |s| && s[i].Some? && p(s[i].value) ==> s[i].value in r
  {
    var s := init + [last];
    forall i | 0 <= i < |s| && s[i].Some? && p(s[i].value) ensures s[i].value in r {
      if i < |init| {
        assert s[i] == init[i];
        assert init[i].value in r0;
      }
    }
  }

  /** A subsequence stays one when both lists grow by the same element, or only the larger does. */
  lemma SubseqExtend<T>(a: seq<T>, b: seq<T>, x: T)
    requires IsSubseq(a, b)
    ensures IsSubseq(a + [x], b + [x]) && IsSubseq(a, b + [x])
  {
    assert (a + [x])[..|a|] == a;
    assert (b + [x])[..|b|] == b;
  }

  lemma PresentCountStep<T(!new)>(init: seq<Option<T>>, last: Option<T>, r0: seq<T>, r: seq<T>, p: T -> bool)
    requires forall x :: multiset(r0)[x] == if p(x) then multiset(init)[Some(x)] else 0
    requires r == if last.Some? && p(last.value) then r0 + [last.value] else r0
    ensures forall x :: multiset(r)[x] == if p(x) then multiset(init + [last])[Some(x)] else 0
  {
    assert multiset(init + [last]) == multiset(init) + multiset{last};
    if last.Some? && p(last.value) {
      assert multiset(r) == multiset(r0) + multiset{last.value};
    }
  }

  /** Subsequence is transitive. */
  lemma {:induction false} SubseqTrans<T>(a: seq<T>, b: seq<T>, c: seq<T>)
    requires IsSubseq(a, b) && IsSubseq(b, c)
    ensures IsSubseq(a, c)
    decreases |c|
  {
    if |a| == 0 {
    } else if |c| == 0 {
    } else if |b| == 0 {
    } else if IsSubseq(b, c[..|c| - 1]) {
      SubseqTrans(a, b, c[..|c| - 1]);
    } else {
      // b's last element is matched with c's last element
      assert b[|b| - 1] == c[|c| - 1] && IsSubseq(b[..|b| - 1], c[..|c| - 1]);
      if a[|a| - 1] == b[|b| - 1] && IsSubseq(a[..|a| - 1], b[..|b| - 1]) {
        SubseqTrans(a[..|a| - 1], b[..|b| - 1], c[..|c| - 1]);
      } else {
        SubseqTrans(a, b[..|b| - 1], c[..|c| - 1]);
      }
    }
  }

  // ---------------------------------------------------------------------------
  // Sorting by a comparator

  /** `le` is total and transitive, as a consistent `Array.prototype.sort` comparator must be. */
  ghost predicate TotalPreorder<T(!new)>(le: (T, T) -> bool) {
    && (forall a, b :: le(a, b) || le(b, a))
    && (forall a, b, c :: le(a, b) && le(b, c) ==> le(a, c))
  }

  ghost predicate SortedBy<T>(s: seq<T>, le: (T, T) -> bool) {
    forall i, j :: 0 <= i < j < |s| ==> le(s[i], s[j])
  }

  /** Places `x` after every element not above it (so equal elements keep their order). */
  function Insert<T(!new)>(s: seq<T>, x: T, le: (T, T) -> bool): (r: seq<T>)
    requires TotalPreorder(le) && SortedBy(s, le)
    ensures multiset(r) == multiset(s) + multiset{x}
    ensures |r| == |s| + 1
    ensures SortedBy(r, le)
  {
    if |s| == 0 then [x]
    else if le(s[|s| - 1], x) then s + [x]
    else
      var last := s[|s| - 1];
      var init := s[..|s| - 1];
      assert s == init + [last];
      var r' := Insert(init, x, le);
      assert forall i :: 0 <= i < |r'| ==> le(r'[i], last) by {
        forall i | 0 <= i < |r'| ensures le(r'[i], last) {
          assert r'[i] in multiset(r');
          assert r'[i] in multiset(init) || r'[i] == x;
          if r'[i] != x {
            assert r'[i] in init;
          }
        }
      }
      r' + [last]
  }

  /** The elements tied with `c` under `le`. */
  function Ties<T>(le: (T, T) -> bool, c: T): T -> bool {
    y => le(y, c) && le(c, y)
  }

  /** `r` lists every class of tied elements in the order `s` lists it. */
  ghost predicate Stable<T(!new)>(r: seq<T>, s: seq<T>, le: (T, T) -> bool) {
    forall c :: Filter(r, Ties(le, c)) == Filter(s, Ties(le, c))
  }

  /** A stable ascending sort: a permutation of `s` ordered by `le`. */
  function SortBy<T(!new)>(s: seq<T>, le: (T, T) -> bool): (r: seq<T>)
    requires TotalPreorder(le)
    ensures multiset(r) == multiset(s)
    ensures |r| == |s|
    ensures SortedBy(r, le)
  {
    if |s| == 0 then []
    else
      assert s == s[..|s| - 1] + [s[|s| - 1]];
      Insert(SortBy(s[..|s| - 1], le), s[|s| - 1], le)
  }

  lemma FilterSnoc<T>(s: seq<T>, x: T, p: T -> bool)
    ensures Filter(s + [x], p) == Filter(s, p) + (if p(x) then [x] else [])
  {
    assert (s + [x])[..|s|] == s;
  }

  /** Inserting `x` puts it after its ties and leaves every other class of ties in order. */
  lemma {:induction false} InsertStable<T(!new)>(s: seq<T>, x: T, le: (T, T) -> bool, c: T)
    requires TotalPreorder(le) && SortedBy(s, le)
    ensures Filter(Insert(s, x, le), Ties(le, c)) == Filter(s, Ties(le, c)) + (if Ties(le, c)(x) then [x] else [])
  {
    var q := Ties(le, c);
    if |s| == 0 {
      assert Insert(s, x, le) == [] + [x];
      FilterSnoc([], x, q);
    } else if le(s[|s| - 1], x) {
      FilterSnoc(s, x, q);
    } else {
      var last := s[|s| - 1];
      var init := s[..|s| - 1];
      assert s == init + [last];
      SortedPrefix(s, le);
      assert Insert(s, x, le) == Insert(init, x, le) + [last];
      InsertStable(init, x, le, c);
      InsertStableLast(Insert(init, x, le), init, last, x, le, c);
    }
  }

  lemma SortedPrefix<T>(s: seq<T>, le: (T, T) -> bool)
    requires |s| > 0 && SortedBy(s, le)
    ensures SortedBy(s[..|s| - 1], le)
  {
  }

  /** The step past an element `last` above `x`: `last` is never in the same class of ties as `x`. */
  lemma InsertStableLast<T(!new)>(u: seq<T>, init: seq<T>, last: T, x: T, le: (T, T) -> bool, c: T)
    requires TotalPreorder(le) && !le(last, x)
    requires Filter(u, Ties(le, c)) == Filter(init, Ties(le, c)) + (if Ties(le, c)(x) then [x] else [])
    ensures Filter(u + [last], Ties(le, c)) == Filter(init + [last], Ties(le, c)) + (if Ties(le, c)(x) then [x] else [])
  {
    var q := Ties(le, c);
    FilterSnoc(u, last, q);
    FilterSnoc(init, last, q);
    TiesExclusive(le, c, x, last);
  }

  /** An element strictly above `x` is never tied with the same element as `x`. */
  lemma TiesExclusive<T(!new)>(le: (T, T) -> bool, c: T, x: T, y: T)
    requires TotalPreorder(le) && !le(y, x)
    ensures !(Ties(le, c)(x) && Ties(le, c)(y))
  {
  }

  /** Sorting keeps the input order among tied elements, as `Array.prototype.sort` does. */
  lemma {:induction false} SortByStable<T(!new)>(s: seq<T>, le: (T, T) -> bool)
    requires TotalPreorder(le)
    ensures Stable(SortBy(s, le), s, le)
  {
    if |s| > 0 {
      var init := s[..|s| - 1];
      assert s == init + [s[|s| - 1]];
      SortByStable(init, le);
      forall c ensures Filter(SortBy(s, le), Ties(le, c)) == Filter(s, Ties(le, c)) {
        InsertStable(SortBy(init, le), s[|s| - 1], le, c);
        FilterSnoc(init, s[|s| - 1], Ties(le, c));
      }
    }
  }

  ghost predicate KeySorted<T>(s: seq<T>, key: T -> int) {
    forall i, j :: 0 <= i < j < |s| ==> key(s[i]) <= key(s[j])
  }

  /** Two orderings by the same integer key of the same elements show the same key at every position. */
  lemma {:induction false} SortedKeysAgree<T>(a: seq<T>, b: seq<T>, key: T -> int)
    requires multiset(a) == multiset(b)
    requires KeySorted(a, key) && KeySorted(b, key)
    ensures |a| == |b|
    ensures forall i :: 0 <= i < |a| ==> key(a[i]) == key(b[i])
    decreases |a|
  {
    assert |a| == |multiset(a)| == |multiset(b)| == |b|;
    if |a| > 0 {
      var n := |a|;
      var x := a[n - 1];
      var k := LastKeysAgree(a, b, key);
      var a' := a[..n - 1];
      var b' := b[..k] + b[k + 1..];
      DropOne(a, b, k);
      SortedDrop(b, k, key);
      assert KeySorted(a', key);
      SortedKeysAgree(a', b', key);
      KeysAgreeAfterDrop(a, b, a', b', k, key);
    }
  }

  /** Agreement on the shorter lists, plus agreement at the end, gives agreement everywhere. */
  lemma KeysAgreeAfterDrop<T>(a: seq<T>, b: seq<T>, a': seq<T>, b': seq<T>, k: nat, key: T -> int)
    requires |a| == |b| > 0 && k < |b| && b[k] == a[|a| - 1]
    requires a' == a[..|a| - 1] && b' == b[..k] + b[k + 1..]
    requires KeySorted(b, key) && key(a[|a| - 1]) == key(b[|b| - 1])
    requires forall i :: 0 <= i < |a'| ==> key(a'[i]) == key(b'[i])
    ensures forall i :: 0 <= i < |a| ==> key(a[i]) == key(b[i])
  {
    var n := |a|;
    forall i | 0 <= i < n ensures key(a[i]) == key(b[i]) {
      if i < k {
        assert a[i] == a'[i] && b'[i] == b[i];
      } else if i < n - 1 {
        assert a[i] == a'[i] && b'[i] == b[i + 1];
        assert key(b[k]) <= key(b[i]) <= key(b[i + 1]) <= key(b[n - 1]);
      }
    }
  }

  /** The last elements carry the same key, and `a`'s last element sits at some `k` of `b`. */
  lemma LastKeysAgree<T>(a: seq<T>, b: seq<T>, key: T -> int) returns (k: nat)
    requires multiset(a) == multiset(b) && |a| == |b| > 0
    requires KeySorted(a, key) && KeySorted(b, key)
    ensures k < |b| && b[k] == a[|a| - 1]
    ensures key(a[|a| - 1]) == key(b[|b| - 1])
  {
    var n := |a|;
    assert a[n - 1] in multiset(b);
    k :| 0 <= k < n && b[k] == a[n - 1];
    assert b[n - 1] in multiset(a);
    var m :| 0 <= m < n && a[m] == b[n - 1];
  }

  lemma DropOne<T>(a: seq<T>, b: seq<T>, k: nat)
    requires multiset(a) == multiset(b) && |a| == |b| > 0 && k < |b| && b[k] == a[|a| - 1]
    ensures multiset(a[..|a| - 1]) == multiset(b[..k] + b[k + 1..])
  {
    var x := a[|a| - 1];
    assert a == a[..|a| - 1] + [x];
    assert b == b[..k] + [x] + b[k + 1..];
    assert multiset(a) == multiset(a[..|a| - 1]) + multiset{x};
    assert multiset(b) == multiset(b[..k]) + multiset{x} + multiset(b[k + 1..]);
    assert multiset(b[..k] + b[k + 1..]) == multiset(b[..k]) + multiset(b[k + 1..]);
    assert multiset(a[..|a| - 1]) == multiset(a) - multiset{x};
  }

  lemma SortedDrop<T>(b: seq<T>, k: nat, key: T -> int)
    requires k < |b| && KeySorted(b, key)
    ensures KeySorted(b[..k] + b[k + 1..], key)
  {
    var b' := b[..k] + b[k + 1..];
    forall i, j | 0 <= i < j < |b'| ensures key(b'[i]) <= key(b'[j]) {
      var i0 := if i < k then i else i + 1;
      var j0 := if j < k then j else j + 1;
      assert b'[i] == b[i0] && b'[j] == b[j0];
    }
  }
}

=== FILE: time.dfy ===
/**
 The queue item record shared by the autopilot page and the time helpers
 (`src/lib/time.ts`): which timestamp a queue row shows, and the placeholder
 for a missing one.
 */
module Time {
  import opened Js

  datatype Meta = Meta(originalScheduledAt: Option<Scalar>)

  /**
   A queue item as the API returns it. `dbId` is the `_id` field; `meta` is
   absent on items that were never rescheduled.
   */
  datatype QueueItem = QueueItem(
    dbId: Option<string>,
    id: Option<string>,
    videoId: Option<string>,
    title: Option<string>,
    caption: Option<string>,
    platform: Option<string>,
    status: Option<string>,
    scheduledAt: Option<string>,
    meta: Option<Meta>)

  /** The rescheduling original, when it is a non-empty string. */
  predicate HasOriginal(q: QueueItem) {
    q.meta.Some? && q.meta.value.originalScheduledAt.Some?
    && q.meta.value.originalScheduledAt.value.JStr?
    && q.meta.value.originalScheduledAt.value.s != ""
  }

  /**
   `displayIso`: the time a row shows. A non-empty string in
   `meta.originalScheduledAt` wins; otherwise `scheduledAt` is passed through
   as it is (it may be empty or absent).
   */
  function DisplayIso(q: QueueItem): (r: Option<string>)
    ensures HasOriginal(q) ==> r == Some(q.meta.value.originalScheduledAt.value.s)
    ensures !HasOriginal(q) ==> r == q.scheduledAt
  {
    var fromMeta :=
      if q.meta.Some? && q.meta.value.originalScheduledAt.Some? && q.meta.value.originalScheduledAt.value.JStr?
      then Some(q.meta.value.originalScheduledAt.value.s) else None;
    Or(fromMeta, q.scheduledAt)
  }

  /** The shown time is blank only when both candidate fields are blank. */
  lemma DisplayIsoTruthy(q: QueueItem)
    ensures Truthy(DisplayIso(q)) <==> HasOriginal(q) || Truthy(q.scheduledAt)
  {
  }

  /** With an original time present, rescheduling (`scheduledAt`) does not move the row's shown time. */
  lemma DisplayIsoIgnoresReschedule(q: QueueItem, when: Option<string>)
    requires HasOriginal(q)
    ensures DisplayIso(q.(scheduledAt := when)) == DisplayIso(q)
  {
  }

  /** The placeholder `formatLocal` returns, exactly the three characters the source file holds. */
  const Placeholder: string := "\U{E2}\U{20AC}\U{201D}"

  /**
   `formatLocal`: absent or empty input yields the placeholder without calling
   the formatter; otherwise the formatter's text, or the input itself when
   the formatter throws (`None`).
   */
  function FormatLocal(iso: Option<string>, format: string -> Option<string>): (r: string)
    ensures !Truthy(iso) ==> r == Placeholder
    ensures Truthy(iso) && format(iso.value).Some? ==> r == format(iso.value).value
    ensures Truthy(iso) && format(iso.value).None? ==> r == iso.value
  {
    if !Truthy(iso) then Placeholder
    else match format(iso.value)
      case Some(text) => text
      case None => iso.value
  }
}
